=== FILE: README.md ===
# Portfolio gallery: a Dafny model

This project models the logic of a small portfolio gallery. The gallery has a
React front end where a user uploads images and videos, files them under
categories and browses them by category. Its FastAPI back end stores the
uploaded files and keeps each user's item list in memory.

The model covers:

- the client's item store (`portfolioReducer`);
- the home page's grouping by category, its overview figures and its
  auto-save rule;
- the upload dialog's validity rule, final category and upload flow;
- a category section's icon and colour classifiers and its open/selected
  state;
- the client's service layer (`api.ts`);
- the server's routes, schema, upload naming and in-memory store (`main.py`);
- the colour theme's persistence and the theme menu.

Everything is immutable datatypes and pure functions. Network replies, the
generated uuids and local storage are parameters.

Modules follow the source files:

| module | models |
|---|---|
| `Media` | the `MediaItem` record, the `/upload` answer, HTTP methods |
| `PortfolioContext` | `State`, `Action`, `initialState`, `portfolioReducer` |
| `Grouping`, `StringOrder` | `groupedItems` in the home page; `localeCompare` as code-point order |
| `HomePage` | load on mount, auto-save, totals, overview sentence |
| `UploadModal` | the upload form, `isFormValid`, `handleCategoryChange`, `handleUpload` |
| `PortfolioSection` | `getCategoryIcon`, `getCategoryGradient`, section state, count labels |
| `Api` | base URL, request shapes, status handling, `uploadFile`'s URL join |
| `Backend` | `main.py`: schema, `upload_file`, `save_portfolio`, `load_portfolio`, routing |
| `ClientServer` | requests against routes; what a save followed by a load keeps |
| `ThemeContext`, `ThemeSelector` | theme defaults, restore and persist; theme table and menu |
| `Text`, `Seqs`, `Outcomes` | JavaScript `trim`, `toLowerCase` and `includes`; sequence facts; `Option` and `Result` |

Modelling choices:

- **Strings and case.** Strings are sequences of characters. `trim` removes
  the ECMAScript white-space and line-terminator characters. `toLowerCase` is
  ASCII lower-casing. `localeCompare` is lexicographic code-point order.
- **Grouping object.** The plain object the home page groups into is an
  insertion-ordered map. JavaScript's special handling of prototype keys
  (such as "constructor") and of integer-like keys is not covered.
- **Other category.** The `Category` enum is not part of the source shown.
  Its `OTHER` value is taken to be the option text "Other".
- **Routing.** The server's routing is FastAPI's dispatch on method and path.
  The `{user_id}` parameter matches exactly one non-empty path segment.
  A request's URL is routed as the text the client builds. `fetch` parses
  that URL before sending it, and the parser can rewrite it. It resolves the
  dot segments "." and "..", reads `\` as `/`, and drops tab, line feed and
  carriage return. It percent-encodes some characters, such as spaces,
  quotes, `<`, `>` and non-ASCII text. It leaves `%` and the
  sub-delimiters as they are, and the server decodes any percent escapes in
  the path. It also lower-cases the host and drops a default or
  zero-padded port, which changes no path. It rejects a malformed host or
  port, and then nothing is sent. Fetch also refuses some valid URLs with
  a network error: those whose port is on its list of bad ports, and those
  whose host has a label that IDNA validation rejects. So every routing
  statement requires two things.
  - The base must be a bare origin, `http://host` or `https://host`, with
    no path and no trailing slash (`ClientServer.IsOrigin`). The host is a
    domain name of dot-separated labels whose last label starts with a
    letter. No label starts with the punycode prefix "xn--", in any case.
    The host may be followed by a colon and a port of one to five digits
    no larger than 65535 that is not a bad port.
  - Every user id or file name in the path must use only ASCII letters,
    digits, `-`, `.`, `_` and `~`, and contain no dot segment
    (`ClientServer.IsPlainSegment`).

  On such URLs the parser leaves the path unchanged, and the request is
  delivered. URL parsing itself is not modelled.

Where the intended design and the code differ, the model follows the code:

- `REMOVE_ITEM` removes every item with the id, not just the first.
- No response guards against stale loads.
- `main.py` defines no `/remove-media` route, so the client's `removeMedia`
  request reaches no handler (`ClientServer.RemoveReachesNothing`).

## Model

| member | source | states |
|---|---|---|
| `PortfolioContext.Reduce` | frontend/context/PortfolioContext.tsx:20-40 | ADD_ITEM appends the payload behind the unchanged old items; REMOVE_ITEM keeps exactly the items whose id differs, in order, and drops every match; LOAD_ITEMS replaces the list by its payload; CLEAR empties it |
| `PortfolioContext.WithoutId` | frontend/context/PortfolioContext.tsx:28 | the filter keeps an item iff its id differs, shrinks the list by the number of matching items, and keeps the survivors' order |
| `PortfolioContext.RemoveAbsentIsIdentity` | frontend/context/PortfolioContext.tsx:25-29 | removing an id no item carries leaves the list unchanged |
| `PortfolioContext.RemoveIdempotent` | frontend/context/PortfolioContext.tsx:25-29 | removing the same id twice equals removing it once |
| `PortfolioContext.WithoutIdAppend` | frontend/context/PortfolioContext.tsx:28 | removal distributes over concatenation |
| `PortfolioContext.AddThenRemoveFresh` | frontend/context/PortfolioContext.tsx:22-29 | adding an item with a fresh id and then removing that id restores the state |
| `PortfolioContext.RunAppend` | frontend/context/PortfolioContext.tsx:20-40 | dispatching two batches in turn equals dispatching their concatenation |
| `PortfolioContext.RunAfterLoad` | frontend/context/PortfolioContext.tsx:31-32 | after LOAD_ITEMS, the state depends only on its payload and on the later actions |
| `PortfolioContext.RunAddsOnly` | frontend/context/PortfolioContext.tsx:22-23 | a batch of additions appends its payloads in dispatch order |
| `Grouping.GroupKey` | frontend/app/page.tsx:38 | the key is never empty; it is the category when that is non-empty; "" and "Uncategorized" share the key "Uncategorized" |
| `Grouping.ItemsInIsOrderedFilter` | frontend/app/page.tsx:37-43 | a group holds exactly the items whose normalised category is its key, in their original relative order |
| `Grouping.Push` | frontend/app/page.tsx:39-42 | filing an item creates its key on first use, so the key list stays duplicate-free and equal to the map's keys |
| `Grouping.CollectFromLookup` | frontend/app/page.tsx:37-43 | after the loop, each key's bucket is its old contents followed by the new items with that key |
| `Grouping.Collect` | frontend/app/page.tsx:35-43 | the buckets' keys are exactly the normalised categories, and each bucket is that category's ordered filter |
| `StringOrder.LessTotal` | frontend/app/page.tsx:46 | the comparison is total and asymmetric on different strings |
| `StringOrder.LessTransitive` | frontend/app/page.tsx:46 | the comparison is transitive |
| `StringOrder.LessIrreflexive` | frontend/app/page.tsx:46 | no string precedes itself |
| `StringOrder.Sort` | frontend/app/page.tsx:45-47 | sorting distinct keys yields a strictly ascending permutation of them |
| `Grouping.SortedEntries` | frontend/app/page.tsx:45-47 | the entries list every bucket once, with its own items, in strictly ascending key order |
| `Grouping.GroupedItems` | frontend/app/page.tsx:34-48 | group keys come out strictly ascending, are exactly the normalised categories present, and every group is non-empty and holds its key's items in original order |
| `Grouping.GroupingIsPermutation` | frontend/app/page.tsx:37-43 | the groups concatenated are a permutation of the items, so the group sizes sum to the item count |
| `Grouping.GroupCountIsCategoryCount` | frontend/app/page.tsx:51 | there are as many groups as distinct normalised categories |
| `Grouping.ItemInItsGroup` | frontend/app/page.tsx:37-43 | every item appears in the group keyed by its normalised category |
| `Grouping.StableGroupingExample` | frontend/app/page.tsx:34-48 | categories B, A, B group as A: [2nd], B: [1st, 3rd] |
| `HomePage.OnLoaded` | frontend/app/page.tsx:15-24 | an ok load replaces the items with the reply's items; a failed one leaves the state as it was |
| `HomePage.MountShowsLoadedItems` | frontend/app/page.tsx:15-24 | starting from the empty store, the page shows the loaded items after an ok load and nothing after a failed one |
| `HomePage.AutoSave` | frontend/app/page.tsx:27-31 | a save is issued iff the list is non-empty, and it posts the list as it is |
| `HomePage.EmptyingIsNotPersisted` | frontend/app/page.tsx:28-30 | clearing, or removing an id every item carries, never triggers a save |
| `HomePage.PieceWord` | frontend/app/page.tsx:85 | the overview says "piece" iff there is exactly one item, otherwise "pieces" |
| `HomePage.NatToString` | frontend/app/page.tsx:85-86 | a number prints as decimal digits that read back as the number, with no leading zero |
| `HomePage.Summary` | frontend/app/page.tsx:85-86 | the sentence is the total in decimal without leading zeros, " total ", "piece" iff the total is one and "pieces" otherwise, " across ", the category count in decimal without leading zeros, and " categories" |
| `HomePage.PageOverview` | frontend/app/page.tsx:50-104 | the total is the item count; the category count is the number of distinct normalised categories; the empty state shows iff there are no items and the overview iff there are some; the overview sentence is the summary of those two figures |
| `HomePage.OverviewExample` | frontend/tests/portfolio-management.spec.ts:77-79 | Photography and Videos items read "2 total pieces across 2 categories" |
| `UploadModal.ChangeCategory` | frontend/components/UploadModal.tsx:74-79 | choosing any option but Other resets the custom category to ""; choosing Other keeps it; nothing else changes |
| `UploadModal.IsFormValid` | frontend/components/UploadModal.tsx:81-86 | valid iff a file is chosen, title and description are non-blank after trimming, a category is chosen, and Other comes with a non-blank custom name |
| `UploadModal.InitialFormIsInvalid` | frontend/components/UploadModal.tsx:13-17 | the dialog's initial form is not valid, even once a file is chosen, so the upload button starts disabled |
| `UploadModal.FinalCategory` | frontend/components/UploadModal.tsx:31-34 | the trimmed custom name when Other is chosen and the name is non-blank, else the chosen option verbatim; never empty for a valid form |
| `UploadModal.CustomCategoryIsTrimmed` | frontend/components/UploadModal.tsx:31-34 | a custom category is stored without surrounding white space |
| `UploadModal.NewItem` | frontend/components/UploadModal.tsx:36-44 | the new item takes the fresh id, the upload's filename, kind and address, the title and description untrimmed, and the final category |
| `UploadModal.HandleUpload` | frontend/components/UploadModal.tsx:23-54 | no file: nothing happens; failed upload: nothing dispatched, nothing saved, dialog stays open; success: one ADD_ITEM, a save of the old items plus the new one, and the dialog closes iff the save succeeds |
| `UploadModal.SavedListMatchesReducer` | frontend/components/UploadModal.tsx:46-47 | the saved list is exactly the reducer's list after the dispatched ADD_ITEM |
| `UploadModal.UploadedItemIsComplete` | frontend/components/UploadModal.tsx:31-44 | a valid form's uploaded item has a non-empty category and the file's address under the base URL |
| `PortfolioSection.IconFollowsTable` | frontend/components/PortfolioSection.tsx:42-54 | the icon is the first match, on the lower-cased name, of photo, video, design, illustration, digital art, fashion, fine art, else a folder |
| `PortfolioSection.GradientFollowsTable` | frontend/components/PortfolioSection.tsx:57-70 | photo/fine art, video/digital art and design/fashion pick three gradients in that priority; anything else gets the fourth |
| `PortfolioSection.FirstMatchIsFirst` | frontend/components/PortfolioSection.tsx:42-54 | the first rule whose keyword occurs decides, whatever later rules match |
| `PortfolioSection.FallbackIffNoKeyword` | frontend/components/PortfolioSection.tsx:53 | a table answers its default iff no keyword occurs |
| `PortfolioSection.DefaultsIffNoKeyword` | frontend/components/PortfolioSection.tsx:42-70 | the folder icon and the neutral gradient appear iff the lower-cased name contains none of the keywords |
| `PortfolioSection.PhotoBeatsVideo` | frontend/components/PortfolioSection.tsx:45-46 | a name with both "photo" and "video" gets the photo icon and colours |
| `PortfolioSection.ClassifiersIgnoreCase` | frontend/components/PortfolioSection.tsx:43 | names equal after lower-casing get the same icon and gradient |
| `PortfolioSection.InitSection` | frontend/components/PortfolioSection.tsx:22-24 | a section starts open iff isExpanded, with nothing selected and the viewer closed |
| `PortfolioSection.Toggle` | frontend/components/PortfolioSection.tsx:26-29 | the header click flips open/closed and touches nothing else |
| `PortfolioSection.ToggleTwice` | frontend/components/PortfolioSection.tsx:26-29 | two header clicks restore the section |
| `PortfolioSection.CardClick` | frontend/components/PortfolioSection.tsx:31-34 | a card click selects the item and opens the viewer |
| `PortfolioSection.CloseModal` | frontend/components/PortfolioSection.tsx:36-39 | closing clears the selection and closes the viewer |
| `PortfolioSection.ClickThenClose` | frontend/components/PortfolioSection.tsx:31-39 | opening a card and closing the viewer returns to the idle section |
| `PortfolioSection.CountLabels` | frontend/components/PortfolioSection.tsx:96-107 | "item" and "piece" iff exactly one item, otherwise "items" and "pieces" |
| `Api.BaseUrl` | frontend/services/api.ts:1-2 | a configured address is used even when empty; only a missing one falls back to http://localhost:8000 |
| `Api.UploadRequest` | frontend/services/api.ts:5-11 | the upload is a POST to base + "/upload" carrying the file as a form |
| `Api.SaveRequest` | frontend/services/api.ts:21-26 | the save is a POST to base + "/save-portfolio" carrying the user id and the items unchanged |
| `Api.LoadRequest` | frontend/services/api.ts:32-33 | the load is a GET with no body to base + "/load-portfolio/" followed by the user id, unencoded |
| `Api.RemoveRequest` | frontend/services/api.ts:37-43 | the removal is a DELETE to base + "/remove-media" carrying the user id and the media id |
| `Api.Settle` | frontend/services/api.ts:13-14 | ok iff a reply arrived with status 200-299, yielding its body; any other status gives the call's own error; no reply gives a network error |
| `Api.UploadFile` | frontend/services/api.ts:4-19 | on success the server's id, filename and kind are kept and the address becomes base + "/uploads/" + filename; a non-ok status gives the upload error and no reply gives the network error |
| `Backend.ValidateAll` | main.py:28-39 | each item is reduced, in order, to the schema's six fields |
| `Backend.SavePortfolio` | main.py:62-65 | the user's list is replaced by the validated items and every other user's list is unchanged |
| `Backend.LoadPortfolio` | main.py:68-70 | a known user's list, and the empty list for an unknown user, for either item schema |
| `Backend.LoadAfterSave` | main.py:62-70 | loading after saving gives the saved items, each reduced to the schema's fields |
| `Backend.SaveIsolationAndOverwrite` | main.py:64 | a save is invisible to other users, and a second save for a user overwrites the first |
| `Backend.SplitExt` | main.py:44 | root and extension glue back to the name; there is an extension iff the last path component has a dot after a non-dot character, and then it runs from the last dot to the end, holding no further dot or slash |
| `Backend.SplitExtExamples` | main.py:44 | "photo.png" splits as ("photo", ".png") and "clip.tar.gz" as ("clip.tar", ".gz") |
| `Backend.NoExtensionExamples` | main.py:44 | ".bashrc" and "notes" have no extension |
| `Backend.MediaTypeOf` | main.py:52 | "video" iff the content type contains "video", otherwise "image" |
| `Backend.UploadFile` | main.py:42-59 | the returned id is the uuid; the saved name is the uuid followed by the original extension; the address is "/uploads/" + saved name; the kind is "video" when the content type contains "video" and "image" otherwise |
| `Backend.Route` | main.py:42-71 | the load route hands over a non-empty single-segment user id; static files are served under /uploads/ |
| `ClientServer.RequestsReachTheirRoutes` | frontend/services/api.ts:4-47 | on a bare-origin base, upload and save reach their handlers; a load with a plain user id reaches the load handler with that id; the DELETE of /remove-media reaches nothing |
| `ClientServer.LoadReachesHandler` | frontend/services/api.ts:32-33 | on a bare-origin base, a user id of unreserved characters other than "." and ".." reaches the handler unchanged |
| `ClientServer.PageLoadReachesHandler` | frontend/app/page.tsx:9-18 | the page's load for user "a" reaches the load handler for "a" on a bare-origin base |
| `ClientServer.UrlShapeExamples` | frontend/services/api.ts:33 | ".", "..", and ids with a backslash, tab or percent sign are not plain; "./b" and "x/../b" hold dot segments |
| `ClientServer.HttpOrigin` | frontend/services/api.ts:1-2 | `http://host` is a bare origin exactly when the host is a domain name with an optional valid port |
| `ClientServer.DefaultBaseIsOrigin` | frontend/services/api.ts:1-2 | the default address http://localhost:8000 is a bare origin |
| `ClientServer.NotOriginExamples` | frontend/services/api.ts:1-2 | the configured empty base and a base with a trailing slash are not bare origins |
| `ClientServer.LetterPortNotOrigin` | frontend/services/api.ts:1-2 | a base whose port is not a number, such as http://a:b, is not a bare origin |
| `ClientServer.TwoPortsNotOrigin` | frontend/services/api.ts:1-2 | a base with two ports is not a bare origin |
| `ClientServer.LargePortNotOrigin` | frontend/services/api.ts:1-2 | a base with a port above 65535 is not a bare origin |
| `ClientServer.NumericHostNotOrigin` | frontend/services/api.ts:1-2 | a base whose last host label is numeric, such as http://1.2.3.256, is not a bare origin |
| `ClientServer.BadPortNotOrigin` | frontend/services/api.ts:1-2 | a base on a port Fetch blocks, such as http://localhost:6000, is not a bare origin |
| `ClientServer.PunycodeHostNotOrigin` | frontend/services/api.ts:1-2 | a base whose host starts with the punycode prefix, such as http://xn--a, is not a bare origin |
| `ClientServer.UpperPunycodeNotOrigin` | frontend/services/api.ts:1-2 | the punycode prefix is recognised in upper case in a later label |
| `ClientServer.SlashInUserIdMissesLoad` | frontend/services/api.ts:33 | the id is not encoded, so on a bare-origin base an id of unreserved characters and slashes, with a slash, no dot segment and no trailing slash, reaches no handler |
| `ClientServer.RemoveReachesNothing` | frontend/services/api.ts:38-43 | the remove request finds no route on the server |
| `ClientServer.SavedNameIsPlain` | main.py:44-46 | with a uuid of hexadecimal digits and hyphens and an extension of unreserved characters, the saved name is one plain path segment |
| `ClientServer.UploadedFileIsServed` | frontend/services/api.ts:15-18 | the address the client records is the base plus the server's static address; on a bare-origin base, with an extension of unreserved characters, a GET of it reaches the saved file |
| `ClientServer.AsClientItem` | main.py:28-34 | a loaded item carries every schema field and no address |
| `ClientServer.ReloadLosesUrl` | main.py:28-34 | as written, saving and reloading blanks every address, so a list with an address never comes back equal |
| `ClientServer.ReloadLosesUrlExample` | main.py:28-34 | one uploaded item saved and reloaded comes back without its address |
| `ClientServer.SaveWithUrl` | main.py:62-65 | with the address in the schema, a save stores every field of every item and leaves other users alone |
| `ClientServer.ReloadKeepsItems` | main.py:62-70 | with the address in the schema, reloading gives back exactly the saved list |
| `ClientServer.PageReloadShowsSavedItems` | frontend/app/page.tsx:15-31 | with the address in the schema, the page's load after an auto-save of a non-empty list shows exactly that list |
| `ThemeContext.ParseTheme` | frontend/context/ThemeContext.tsx:36-45 | a stored text names a theme iff it is one of the five theme names, and then names that theme |
| `ThemeContext.ParseMode` | frontend/context/ThemeContext.tsx:49 | a stored text names a mode iff it is "light" or "dark" |
| `ThemeContext.ThemeNamesRoundTrip` | frontend/context/ThemeContext.tsx:5-10 | every theme's name is allowed and reads back as that theme |
| `ThemeContext.ModeNamesRoundTrip` | frontend/context/ThemeContext.tsx:11 | every mode's name is allowed and reads back as that mode |
| `ThemeContext.GetItem` | frontend/context/ThemeContext.tsx:33-34 | a stored key yields its text, a missing key yields nothing |
| `ThemeContext.Restore` | frontend/context/ThemeContext.tsx:31-52 | a valid stored theme and a valid stored mode are each adopted; anything else keeps the prior value; the result is always an allowed theme and mode |
| `ThemeContext.RestoreIsIndependent` | frontend/context/ThemeContext.tsx:36-51 | what is stored for the mode never affects the restored theme, and vice versa |
| `ThemeContext.Persist` | frontend/context/ThemeContext.tsx:54-60 | the theme and mode names are written under "theme" and "colorMode", and other keys are untouched |
| `ThemeContext.RestorePersisted` | frontend/context/ThemeContext.tsx:31-60 | restoring what was persisted gives back the persisted state |
| `ThemeContext.PersistOverwrites` | frontend/context/ThemeContext.tsx:54-57 | persisting twice leaves what persisting the last state alone leaves |
| `ThemeContext.Mount` | frontend/context/ThemeContext.tsx:27-60 | start-up restores over the defaults; the final storage is the original with the restored names written under both keys, and it restores to the same state |
| `ThemeContext.MountReplacesInvalidTheme` | frontend/context/ThemeContext.tsx:33-57 | a stored invalid theme "purple" is replaced in storage by "beige" on start-up |
| `ThemeContext.ReloadKeepsChoice` | frontend/context/ThemeContext.tsx:31-60 | after persisting a state, a reload starts in that state |
| `ThemeContext.EmptyStorageGivesDefaults` | frontend/context/ThemeContext.tsx:28-29 | with nothing stored, start-up is beige and light |
| `ThemeSelector.TableCoversEveryTheme` | frontend/components/ThemeSelector.tsx:6-12 | the table has five entries with distinct themes, every theme among them, so the swatch lookup always finds a colour |
| `ThemeSelector.FindColor` | frontend/components/ThemeSelector.tsx:31 | a colour is found iff some entry has the theme, and it is the colour of the first such entry |
| `ThemeSelector.ToggleColorMode` | frontend/components/ThemeSelector.tsx:18-20 | the switch always changes the mode |
| `ThemeSelector.ToggleTwice` | frontend/components/ThemeSelector.tsx:18-20 | two presses restore the mode |
| `ThemeSelector.Step` | frontend/components/ThemeSelector.tsx:25-63 | the trigger flips the menu; the backdrop closes it with the theme unchanged; choosing sets the theme and closes; the mode switch changes only the mode; with the menu closed only the trigger acts |
| `ThemeSelector.ChosenThemeSurvivesReload` | frontend/components/ThemeSelector.tsx:60-63 | a theme chosen from the menu is the theme after a persist and reload, with the mode unchanged |
| `Text.Trim` | frontend/components/UploadModal.tsx:83-84 | the result is a slice of the text with only white space before and after it; it is "" iff the text is all white space, and otherwise starts and ends with a non-white-space character |
| `Text.Includes` | frontend/components/PortfolioSection.tsx:45 | true iff the keyword occurs at some position |
| `Text.ToLower` | frontend/components/PortfolioSection.tsx:43 | lower-casing keeps the length and maps each character through the ASCII lower-case mapping |
| `Text.ToLowerIdempotent` | frontend/components/PortfolioSection.tsx:43 | lower-casing twice equals lower-casing once |

## Left out

- Rendering is not modelled: JSX, animations, CSS strings and the
  presentational components.
- File and network I/O are not modelled: `fetch`, `FormData`, object URLs,
  writing the uploaded bytes, CORS. Replies are parameters.
- Effect scheduling is not modelled. The race between the page's auto-save
  and the dialog's own save is left out, and so is the dialog's `isUploading`
  flag.
- The optional `onToggle` callback of a section is not modelled; it belongs
  to the parent.
- The uuids are parameters, both the server's file id and the client's item
  id.
- The hard-coded page user id "a" and the context user id "default" are not
  reconciled. User ids are parameters.
- The user-id editor is not modelled; frontend/context/UserContext.tsx only
  holds a default.
- `removeMedia` has no server-side deletion semantics, because the server has
  no such route. Only its request shape and the fact that it reaches no
  handler are modelled.
- Locale-aware comparison and Unicode case mapping are approximated by
  code-point order and ASCII lower-casing.
- JavaScript object-key quirks are not covered: prototype keys and the
  reordering of integer-like keys.
- The browser's URL parsing is not modelled. That covers dot-segment
  resolution, backslashes, removed control characters, percent-encoding
  and the server's percent-decoding. So is a base that is empty, has a path
  or ends in a slash. Such requests go to other paths or to the page's own
  server.
- Starlette's slash redirect is not modelled. When a path matches no
  route, the router retries it with its trailing slash removed, or with a
  slash added if it had none. If the retried path matches, the client is
  redirected there.
- IP-address hosts, such as `127.0.0.1` or `[::1]`, non-ASCII host
  names, and hosts with a label starting with "xn--" are not covered by
  `ClientServer.IsOrigin`. Some of the latter are valid punycode, but
  deciding which would need IDNA validation, which is not modelled.
- Backend.SplitExt: follows POSIX `os.path.splitext`. The server is taken
  to run on a POSIX system. On Windows, `ntpath` also treats `\` and a
  drive colon as separators.
- Grouping.GroupedItems: is stated for the code-point order rather than for
  `localeCompare`, because the locale's collation is not part of this model.
- Backend.Route: routes the path as given. It does not decode
  percent-escapes, normalise dot segments or redirect trailing slashes.
- ClientServer.RequestsReachTheirRoutes: is stated only for a bare-origin
  base, and its load case only for plain user ids. The program's behaviour
  on other bases and ids depends on the URL parsing left out above.
- ClientServer.LoadReachesHandler: is stated only for a bare-origin base and
  an id of unreserved characters other than "." and "..". The URL parser
  rewrites other ids, for example `".."` becomes a request for `/`.
- ClientServer.SlashInUserIdMissesLoad: excludes dot segments, such as
  `"./b"`, which the URL parser resolves to `/load-portfolio/b`. It also
  excludes a trailing slash, which the router's redirect strips, and
  characters other than unreserved ones and `/`.
- ClientServer.UploadedFileIsServed: is stated only for a bare-origin base
  and a file extension of unreserved characters. An extension holding `%`
  is decoded by the server, and one holding `\` is rewritten by the URL
  parser, so the address can miss the saved file.

## Findings

| source | as written | input that shows it | evidently intended | confidence | as-written member | corrected member |
|---|---|---|---|---|---|---|
| main.py:28-34 | the server's `MediaItem` schema has no `url` field, so validation drops each item's address on save, and a reload hands the client items without one | save one uploaded item with url "http://localhost:8000/uploads/u1.png" for user "a", then load "a": the item comes back with no url | `url` is a schema field, as in the client's `MediaItem`, so a reload returns the saved list unchanged | not executed | `ClientServer.ReloadLosesUrl` | `ClientServer.ReloadKeepsItems` |

=== FILE: api.dfy ===
/** The client's service layer (frontend/services/api.ts): the base address,
    the request each call sends, and how each call settles. `fetch` is an
    oracle: its reply is a parameter. */
module Api {
  import opened Outcomes
  import opened Media

  /** The address used when no backend address is configured. */
  const DefaultBaseUrl: string := "http://localhost:8000"

  /** `NEXT_PUBLIC_BACKEND_URL ?? "http://localhost:8000"`: only a missing
      setting falls back to the default; a configured empty string is kept. */
  function BaseUrl(env: Option<string>): (r: string)
    ensures env.Some? ==> r == env.value
    ensures env.None? ==> r == DefaultBaseUrl
  {
    match env
    case Some(v) => v
    case None => DefaultBaseUrl
  }

  /** A browser `File`: its name and MIME type. The bytes are not modelled. */
  datatype FileRef = FileRef(name: string, contentType: string)

  /** What a request carries: nothing, a multipart form with field `file`,
      or one of the two JSON bodies. */
  datatype Body =
    | NoBody
    | FileForm(file: FileRef)
    | SaveBody(userId: string, items: seq<MediaItem>)
    | RemoveBody(userId: string, mediaId: string)

  datatype Request = Request(verb: Method, url: string, body: Body)

  /** `uploadFile`'s request: a POST of the file as form field `file` to
      `/upload` under the base. */
  function UploadRequest(base: string, file: FileRef): (r: Request)
    ensures r.verb == Post && r.url == base + "/upload" && r.body == FileForm(file)
  {
    Request(Post, base + "/upload", FileForm(file))
  }

  /** `savePortfolio`'s request: a POST of JSON `{user_id, items}` to
      `/save-portfolio` under the base, the items sent as they are. */
  function SaveRequest(base: string, userId: string, items: seq<MediaItem>): (r: Request)
    ensures r.verb == Post && r.url == base + "/save-portfolio"
    ensures r.body.SaveBody? && r.body.userId == userId && r.body.items == items
  {
    Request(Post, base + "/save-portfolio", SaveBody(userId, items))
  }

  /** `loadPortfolio`'s request: a GET with no body, the user id pasted
      into the path as is, without any encoding. */
  function LoadRequest(base: string, userId: string): (r: Request)
    ensures r.verb == Get && r.body == NoBody
    ensures r.url == base + "/load-portfolio/" + userId
  {
    Request(Get, base + "/load-portfolio/" + userId, NoBody)
  }

  /** `removeMedia`'s request: a DELETE of JSON `{user_id, media_id}` to
      `/remove-media` under the base. */
  function RemoveRequest(base: string, userId: string, mediaId: string): (r: Request)
    ensures r.verb == Delete && r.url == base + "/remove-media"
    ensures r.body.RemoveBody? && r.body.userId == userId && r.body.mediaId == mediaId
  {
    Request(Delete, base + "/remove-media", RemoveBody(userId, mediaId))
  }

  /** The error each call throws on a non-ok status, plus the rejection of
      `fetch` itself. */
  datatype ApiError = UploadFailed | SaveFailed | LoadFailed | RemoveFailed | NetworkError

  /** What `fetch` resolves to: no response at all, or a status code and a
      parsed JSON body. */
  datatype Reply<T> = NetworkFailure | Reply(status: int, body: T)

  /** `Response.ok`: the status is in the range 200 to 299. */
  predicate IsOk(status: int)
  {
    200 <= status <= 299
  }

  /** `if (!res.ok) throw new Error(...); return await res.json()`: a non-ok
      status throws the call's own error before the body is looked at; an
      ok status yields the body. */
  function Settle<T>(reply: Reply<T>, failure: ApiError): (r: Result<T, ApiError>)
    ensures r.Ok? <==> reply.Reply? && IsOk(reply.status)
    ensures r.Ok? ==> r.value == reply.body
    ensures reply.Reply? && !IsOk(reply.status) ==> r == Err(failure)
    ensures reply.NetworkFailure? ==> r == Err(NetworkError)
  {
    match reply
    case NetworkFailure => Err(NetworkError)
    case Reply(status, body) => if IsOk(status) then Ok(body) else Err(failure)
  }

  /** `uploadFile`: on success the server's fields are kept, except `url`,
      which is replaced by the absolute address under the base. */
  function UploadFile(base: string, reply: Reply<UploadData>): (r: Result<UploadData, ApiError>)
    ensures r.Ok? <==> reply.Reply? && IsOk(reply.status)
    ensures r.Err? ==> r.error in {UploadFailed, NetworkError}
    ensures reply.Reply? && !IsOk(reply.status) ==> r == Err(UploadFailed)
    ensures reply.NetworkFailure? ==> r == Err(NetworkError)
    ensures r.Ok? ==> && r.value.id == reply.body.id
                      && r.value.filename == reply.body.filename
                      && r.value.mediaType == reply.body.mediaType
                      && r.value.url == base + "/uploads/" + reply.body.filename
  {
    match Settle(reply, UploadFailed)
    case Ok(data) => Ok(data.(url := base + "/uploads/" + data.filename))
    case Err(e) => Err(e)
  }

  /** The body `/load-portfolio` answers with. */
  datatype LoadBody = LoadBody(items: seq<MediaItem>)

  /** The body `/save-portfolio` and `/remove-media` answer with. */
  datatype Ack = Ack(status: string)
}

=== FILE: backend.dfy ===
/** The FastAPI server (main.py): the in-memory `portfolio_db`, its `MediaItem`
    schema, the upload metadata, and the routes. File storage, the random
    uuid and the CORS layer are outside the model; the uuid is a parameter. */
module Backend {
  import opened Media
  import Text

  /** The server's `MediaItem` schema. It has no `url` field, so validation
      silently drops the client's `url`. */
  datatype StoredItem = StoredItem(
    id: string,
    filename: string,
    mediaType: string,
    title: string,
    description: string,
    category: string)

  /** `portfolio_db`: items per user id. */
  type Db = map<string, seq<StoredItem>>

  /** Validating one client item against the schema: every schema field is
      copied, anything else is ignored. */
  function Validate(x: MediaItem): StoredItem
  {
    StoredItem(x.id, x.filename, x.mediaType, x.title, x.description, x.category)
  }

  /** Validating a whole item list, in order. */
  function ValidateAll(items: seq<MediaItem>): (r: seq<StoredItem>)
    ensures |r| == |items|
    ensures forall i :: 0 <= i < |items| ==> r[i] == Validate(items[i])
  {
    if |items| == 0 then [] else [Validate(items[0])] + ValidateAll(items[1..])
  }

  /** `save_portfolio`: `portfolio_db[user_id] = items`. The user's previous
      list is replaced, every other user's list is left alone. */
  function SavePortfolio(db: Db, userId: string, items: seq<MediaItem>): (r: Db)
    ensures r.Keys == db.Keys + {userId}
    ensures r[userId] == ValidateAll(items)
    ensures forall u :: u in db && u != userId ==> r[u] == db[u]
  {
    db[userId := ValidateAll(items)]
  }

  /** `load_portfolio`: the user's list, or the empty list for an unknown
      user. It is written for any item schema. */
  function LoadPortfolio<T>(db: map<string, seq<T>>, userId: string): (r: seq<T>)
    ensures userId in db ==> r == db[userId]
    ensures userId !in db ==> r == []
  {
    if userId in db then db[userId] else []
  }

  /** Loading right after saving gives back the saved items, each reduced to
      the schema's fields. */
  lemma LoadAfterSave(db: Db, userId: string, items: seq<MediaItem>)
    ensures |LoadPortfolio(SavePortfolio(db, userId, items), userId)| == |items|
    ensures forall i :: 0 <= i < |items| ==>
              LoadPortfolio(SavePortfolio(db, userId, items), userId)[i] == Validate(items[i])
  {
  }

  /** A save for one user is invisible to every other user, and a second
      save for the same user overwrites the first. */
  lemma SaveIsolationAndOverwrite(db: Db, u: string, v: string, a: seq<MediaItem>, b: seq<MediaItem>)
    ensures u != v ==> LoadPortfolio(SavePortfolio(db, u, a), v) == LoadPortfolio(db, v)
    ensures SavePortfolio(SavePortfolio(db, u, a), u, b) == SavePortfolio(db, u, b)
  {
  }

  /** Index of the last occurrence of `c` in `s`, or -1 (`str.rfind`). */
  function LastIndexOf(s: string, c: char): (i: int)
    ensures -1 <= i < |s|
    ensures i >= 0 ==> s[i] == c
    ensures forall j :: i < j < |s| ==> s[j] != c
    decreases |s|
  {
    if |s| == 0 then -1
    else if s[|s| - 1] == c then |s| - 1
    else LastIndexOf(s[..|s| - 1], c)
  }

  /** Some character of `s[from..to]` is not a dot. */
  predicate HasNonDot(s: string, from: int, to: int)
    requires 0 <= from <= to <= |s|
  {
    exists j :: from <= j < to && s[j] != '.'
  }

  /** The final path component of `path` has a dot after some non-dot
      character. */
  predicate HasExtension(path: string)
  {
    var start := LastIndexOf(path, '/') + 1;
    exists j :: start <= j < |path| && path[j] == '.' && HasNonDot(path, start, j)
  }

  /** `os.path.splitext` on a POSIX path: the extension runs from the last
      dot of the final path component to the end, unless that component is
      only dots before it (so ".bashrc" has no extension). Root and
      extension always glue back to the path. */
  function SplitExt(path: string): (parts: (string, string))
    ensures parts.0 + parts.1 == path
    ensures parts.1 == [] || (parts.1[0] == '.' && '.' !in parts.1[1..] && '/' !in parts.1)
    ensures parts.1 != [] ==>
              var start := LastIndexOf(path, '/') + 1;
              start <= |parts.0| && HasNonDot(path, start, |parts.0|)
    ensures parts.1 != [] <==> HasExtension(path)
    ensures HasExtension(path) ==> parts.1 == path[LastIndexOf(path, '.')..]
  {
    var sep := LastIndexOf(path, '/');
    var dot := LastIndexOf(path, '.');
    ExtensionAtLastDot(path);
    if dot > sep && HasNonDot(path, sep + 1, dot) then
      assert '.' !in path[dot..][1..] by {
        forall k | 0 <= k < |path[dot..][1..]| ensures path[dot..][1..][k] != '.' {
          assert path[dot..][1..][k] == path[dot + 1 + k];
        }
      }
      assert '/' !in path[dot..] by {
        forall k | 0 <= k < |path[dot..]| ensures path[dot..][k] != '/' {
          assert path[dot..][k] == path[dot + k];
        }
      }
      assert path[..dot] + path[dot..] == path;
      (path[..dot], path[dot..])
    else
      (path, [])
  }

  /** A path has an extension exactly when its last dot lies in the final
      component after some non-dot character of that component. */
  lemma ExtensionAtLastDot(path: string)
    ensures var sep := LastIndexOf(path, '/');
            var dot := LastIndexOf(path, '.');
            HasExtension(path) <==> dot > sep && HasNonDot(path, sep + 1, dot)
  {
    var sep := LastIndexOf(path, '/');
    var dot := LastIndexOf(path, '.');
    if HasExtension(path) {
      var j :| sep + 1 <= j < |path| && path[j] == '.' && HasNonDot(path, sep + 1, j);
      var w :| sep + 1 <= w < j && path[w] != '.';
      assert dot >= j;
      assert HasNonDot(path, sep + 1, dot);
    }
    if dot > sep && HasNonDot(path, sep + 1, dot) {
      assert sep + 1 <= dot < |path| && path[dot] == '.';
    }
  }

  /** A plain file name that does not start with a dot splits at its last
      dot. */
  lemma SplitAtLastDot(name: string, d: int)
    requires '/' !in name && |name| > 0 && name[0] != '.'
    requires 0 < d < |name| && name[d] == '.'
    requires forall k :: d < k < |name| ==> name[k] != '.'
    ensures SplitExt(name) == (name[..d], name[d..])
  {
    assert LastIndexOf(name, '/') == -1;
    assert LastIndexOf(name, '.') == d;
    assert HasExtension(name) by {
      assert HasNonDot(name, 0, d);
    }
  }

  /** Python's documented cases: the last dot decides. */
  lemma SplitExtExamples()
    ensures SplitExt("photo.png") == ("photo", ".png")
    ensures SplitExt("clip.tar.gz") == ("clip.tar", ".gz")
  {
    SplitAtLastDot("photo.png", 5);
    assert "photo.png"[..5] == "photo" && "photo.png"[5..] == ".png";
    SplitAtLastDot("clip.tar.gz", 8);
    assert "clip.tar.gz"[..8] == "clip.tar" && "clip.tar.gz"[8..] == ".gz";
  }

  /** A leading dot does not start an extension, and a name without a dot
      has none. */
  lemma NoExtensionExamples()
    ensures SplitExt(".bashrc") == (".bashrc", "")
    ensures SplitExt("notes") == ("notes", "")
  {
    NoDotAfterFirst(".bashrc");
    NoDotAfterFirst("notes");
  }

  /** A plain file name with no dot after its first character has no
      extension. */
  lemma NoDotAfterFirst(name: string)
    requires '/' !in name && forall k :: 0 < k < |name| ==> name[k] != '.'
    ensures SplitExt(name) == (name, [])
  {
    assert LastIndexOf(name, '/') == -1;
  }

  /** `"video" if "video" in file.content_type else "image"`. */
  function MediaTypeOf(contentType: string): (t: string)
    ensures t == "video" <==> Text.Includes(contentType, "video")
    ensures t == "image" <==> !Text.Includes(contentType, "video")
  {
    if Text.Includes(contentType, "video") then "video" else "image"
  }

  /** `upload_file`'s answer for an uploaded file named `filename` of MIME
      type `contentType`, given the generated `uuid`: the file is saved as
      the uuid followed by the original extension, the returned id is that
      uuid, and the returned url is the static path of the saved file. */
  function UploadFile(filename: string, contentType: string, uuid: string): (r: UploadData)
    ensures r.id == uuid
    ensures |r.filename| >= |uuid| && r.filename[..|uuid|] == r.id
    ensures r.filename[|uuid|..] == SplitExt(filename).1
    ensures r.url == "/uploads/" + r.filename
    ensures r.mediaType == (if Text.Includes(contentType, "video") then "video" else "image")
  {
    var saved := uuid + SplitExt(filename).1;
    assert saved[..|uuid|] == uuid && saved[|uuid|..] == SplitExt(filename).1;
    UploadData(uuid, saved, MediaTypeOf(contentType), "/uploads/" + saved)
  }

  /** The routes the application serves. */
  datatype Endpoint =
    | UploadEndpoint
    | SaveEndpoint
    | LoadEndpoint(userId: string)
    | StaticFile(name: string)
    | NotFound

  /** The text before the first `?` or `#`: the part of a URL the router
      sees. */
  function PathPart(s: string): (r: string)
    ensures |r| <= |s| && r == s[..|r|]
    ensures '?' !in r && '#' !in r
    ensures '?' !in s && '#' !in s ==> r == s
  {
    if |s| == 0 || s[0] == '?' || s[0] == '#' then []
    else
      var rest := PathPart(s[1..]);
      assert s[..|rest| + 1] == [s[0]] + rest;
      [s[0]] + rest
  }

  /** `rest` follows `prefix` in `path`. */
  predicate StartsWith(path: string, prefix: string)
  {
    |prefix| <= |path| && path[..|prefix|] == prefix
  }

  /** FastAPI's dispatch on method and path: the two POST routes, the GET
      route whose last segment is the user id (one segment, no slash), and
      the static files mounted at `/uploads`. Anything else, including
      `/remove-media`, is not found. Percent-decoding is not modelled. */
  function Route(m: Method, path: string): (e: Endpoint)
    ensures e.LoadEndpoint? ==> e.userId != [] && '/' !in e.userId
                                && m == Get && path == "/load-portfolio/" + e.userId
    ensures e.StaticFile? ==> e.name != [] && m == Get && path == "/uploads/" + e.name
  {
    if m == Post && path == "/upload" then UploadEndpoint
    else if m == Post && path == "/save-portfolio" then SaveEndpoint
    else if m == Get && StartsWith(path, "/load-portfolio/")
            && |path| > |"/load-portfolio/"| && '/' !in path[|"/load-portfolio/"|..] then
      assert path == "/load-portfolio/" + path[|"/load-portfolio/"|..];
      LoadEndpoint(path[|"/load-portfolio/"|..])
    else if m == Get && StartsWith(path, "/uploads/") && |path| > |"/uploads/"| then
      assert path == "/uploads/" + path[|"/uploads/"|..];
      StaticFile(path[|"/uploads/"|..])
    else NotFound
  }
}

=== FILE: client_server.dfy ===
/** How the client's requests (frontend/services/api.ts) meet the server's
    routes and storage (main.py): which endpoint each request reaches, that
    an uploaded file's address is served, and what survives a save followed
    by a load. */
module ClientServer {
  import opened Media
  import opened Api
  import opened Backend
  import Seqs
  import PortfolioContext
  import HomePage
  import Outcomes
  import Text

  /** The endpoint a request reaches, once it is delivered, on a server
      whose origin is `base`:
      the router sees the URL after the origin, up to any query or
      fragment. The URL is taken as written: this is what the browser sends
      only when `base` is a bare origin (`IsOrigin`) and the path holds
      nothing the URL parser rewrites (`IsUnreserved` characters and `/`,
      without dot segments), which is what the lemmas below require. */
  function RouteOf(base: string, req: Request): (e: Endpoint)
    ensures !StartsWith(req.url, base) ==> e == NotFound
    ensures e.LoadEndpoint? ==> req.verb == Get
  {
    if StartsWith(req.url, base) then Route(req.verb, PathPart(req.url[|base|..]))
    else NotFound
  }

  /** A character the URL parser leaves in a path as it is and the server
      reads back as itself: ASCII letters and digits, `-`, `.`, `_`, `~`.
      Others are separators (`/`, and `\` in http URLs), query or
      fragment markers, removed (tab, line feed, carriage return) or
      percent-encoded. */
  predicate IsUnreserved(c: char)
  {
    || ('a' <= c <= 'z') || ('A' <= c <= 'Z') || ('0' <= c <= '9')
    || c == '-' || c == '.' || c == '_' || c == '~'
  }

  /** An ASCII letter. */
  predicate IsLetter(c: char)
  {
    ('a' <= c <= 'z') || ('A' <= c <= 'Z')
  }

  /** A domain name the URL parser accepts and IDNA processing keeps
      valid: non-empty labels of letters, digits and hyphens separated by
      single dots, the last label starting with a letter, so that it is not
      read as an IPv4 address, and no label starting with the punycode
      prefix "xn--", whose decoded form IDNA validation may reject. */
  predicate IsDomain(s: string)
  {
    && s != [] && s[0] != '.' && s[|s| - 1] != '.'
    && (forall i :: 0 <= i < |s| ==> IsLetter(s[i]) || Text.IsDigit(s[i]) || s[i] == '-' || s[i] == '.')
    && (forall i :: 0 <= i < |s| ==> !DotPairAt(s, i))
    && (forall i :: 0 <= i < |s| ==> !PunycodeAt(s, i))
    && IsLetter(s[LastIndexOf(s, '.') + 1])
  }

  /** A label starting at `i` begins with "xn--", in any case. */
  predicate PunycodeAt(s: string, i: int)
  {
    && 0 <= i && i + 4 <= |s| && (i == 0 || s[i - 1] == '.')
    && Text.LowerChar(s[i]) == 'x' && Text.LowerChar(s[i + 1]) == 'n'
    && s[i + 2] == '-' && s[i + 3] == '-'
  }

  /** Two dots in a row, an empty label, start at `i`. */
  predicate DotPairAt(s: string, i: int)
  {
    0 <= i < |s| - 1 && s[i] == '.' && s[i + 1] == '.'
  }

  /** A port: one to five decimal digits denoting at most 65535, and not
      one of the ports Fetch refuses to connect to. */
  predicate IsPort(s: string)
  {
    && 1 <= |s| <= 5 && Text.AllDigits(s) && Text.DecimalValue(s) <= 65535
    && !IsBadPort(Text.DecimalValue(s))
  }

  /** One of the "bad ports" of section 2.9 of the Fetch standard: a
      request to any of them ends in a network error without being sent. */
  predicate IsBadPort(n: int)
  {
    || n == 0 || n == 1 || n == 7 || n == 9 || n == 11 || n == 13 || n == 15 || n == 17
    || n == 19 || n == 20 || n == 21 || n == 22 || n == 23 || n == 25 || n == 37 || n == 42
    || n == 43 || n == 53 || n == 69 || n == 77 || n == 79 || n == 87 || n == 95 || n == 101
    || n == 102 || n == 103 || n == 104 || n == 109 || n == 110 || n == 111 || n == 113 || n == 115
    || n == 117 || n == 119 || n == 123 || n == 135 || n == 137 || n == 139 || n == 143 || n == 161
    || n == 179 || n == 389 || n == 427 || n == 465 || n == 512 || n == 513 || n == 514 || n == 515
    || n == 526 || n == 530 || n == 531 || n == 532 || n == 540 || n == 548 || n == 554 || n == 556
    || n == 563 || n == 587 || n == 601 || n == 636 || n == 989 || n == 990 || n == 993 || n == 995
    || n == 1719 || n == 1720 || n == 1723 || n == 2049 || n == 3659 || n == 4045 || n == 4190 || n == 5060
    || n == 5061 || n == 6000 || n == 6566 || n == 6665 || n == 6666 || n == 6667 || n == 6668 || n == 6669
    || n == 6679 || n == 6697 || n == 10080
  }

  /** A host the URL parser accepts without adding a path: a domain name,
      optionally followed by a colon and a port. */
  predicate IsHost(s: string)
  {
    if ':' in s then
      var k := LastIndexOf(s, ':');
      IsDomain(s[..k]) && IsPort(s[k + 1..])
    else IsDomain(s)
  }

  /** `base` is a bare origin, `http://host` or `https://host`: no path, no
      trailing slash, so `base + path` is sent to that host with `path`
      unchanged. An empty base is not an origin: its requests go to the
      page's own server. */
  predicate IsOrigin(base: string)
  {
    || (StartsWith(base, "http://") && IsHost(base[7..]))
    || (StartsWith(base, "https://") && IsHost(base[8..]))
  }

  /** Every character of `s` is unreserved. */
  predicate AllUnreserved(s: string)
  {
    forall i :: 0 <= i < |s| ==> IsUnreserved(s[i])
  }

  /** A user id the browser sends unchanged and the router hands back
      unchanged as one path segment: unreserved characters only, and not
      one of the dot segments "." and "..", which the URL parser resolves. */
  predicate IsPlainSegment(s: string)
  {
    s != [] && s != "." && s != ".." && AllUnreserved(s)
  }

  /** Text made of unreserved characters and slashes carries no query or
      fragment marker. */
  lemma NoMarkers(s: string)
    requires forall i :: 0 <= i < |s| ==> IsUnreserved(s[i]) || s[i] == '/'
    ensures '?' !in s && '#' !in s
  {
  }

  /** The segment of `s` starting at `i` (at the start or just after a
      slash) is "." or "..". */
  predicate DotSegmentAt(s: string, i: int)
    requires 0 <= i <= |s|
  {
    && (i == 0 || s[i - 1] == '/')
    && (|| s[i..] == "." || s[i..] == ".."
        || (i + 2 <= |s| && s[i..i + 2] == "./")
        || (i + 3 <= |s| && s[i..i + 3] == "../"))
  }

  /** Some segment of `s` is a dot segment. */
  predicate HasDotSegment(s: string)
  {
    exists i :: 0 <= i <= |s| && DotSegmentAt(s, i)
  }

  /** The URL of a request built on `base`, seen past the origin. */
  lemma {:induction false} PastBase(base: string, rest: string)
    ensures StartsWith(base + rest, base)
    ensures (base + rest)[|base|..] == rest
  {
    assert (base + rest)[..|base|] == base;
  }

  /** A request built on `base` for `path`, which has no query or
      fragment marker, is routed on `path` itself. */
  lemma {:induction false} RoutedOnPath(base: string, verb: Method, path: string, body: Body)
    requires '?' !in path && '#' !in path
    ensures RouteOf(base, Request(verb, base + path, body)) == Route(verb, path)
  {
    PastBase(base, path);
  }

  /** A GET of `/load-portfolio/<id>` reaches the load handler with that id
      exactly when the id is a non-empty single segment. */
  lemma LoadPath(userId: string)
    requires '?' !in userId && '#' !in userId
    ensures Route(Get, "/load-portfolio/" + userId) ==
              if userId != [] && '/' !in userId then LoadEndpoint(userId) else NotFound
  {
    var path := "/load-portfolio/" + userId;
    assert path[..|"/load-portfolio/"|] == "/load-portfolio/";
    assert path[|"/load-portfolio/"|..] == userId;
    assert !StartsWith(path, "/uploads/") by {
      assert path[1] != "/uploads/"[1];
    }
  }

  /** The fixed paths: the two POST handlers, and no handler for a DELETE
      of `/remove-media`. */
  lemma FixedPaths()
    ensures Route(Post, "/upload") == UploadEndpoint
    ensures Route(Post, "/save-portfolio") == SaveEndpoint
    ensures Route(Delete, "/remove-media") == NotFound
  {
  }

  /** A load for a plain user id reaches the load handler with that id. */
  lemma LoadReachesHandler(base: string, userId: string)
    requires IsOrigin(base) && IsPlainSegment(userId)
    ensures RouteOf(base, LoadRequest(base, userId)) == LoadEndpoint(userId)
  {
    var path := "/load-portfolio/" + userId;
    NoMarkers(userId);
    Seqs.ConcatAssoc(base, "/load-portfolio/", userId);
    RoutedOnPath(base, Get, path, NoBody);
    LoadPath(userId);
  }

  /** The upload request reaches the upload handler. */
  lemma UploadReachesHandler(base: string, file: FileRef)
    requires IsOrigin(base)
    ensures RouteOf(base, UploadRequest(base, file)) == UploadEndpoint
  {
    FixedPaths();
    RoutedOnPath(base, Post, "/upload", FileForm(file));
  }

  /** The save request reaches the save handler. */
  lemma SaveReachesHandler(base: string, userId: string, items: seq<MediaItem>)
    requires IsOrigin(base)
    ensures RouteOf(base, SaveRequest(base, userId, items)) == SaveEndpoint
  {
    FixedPaths();
    RoutedOnPath(base, Post, "/save-portfolio", SaveBody(userId, items));
  }

  /** The remove request reaches no handler. */
  lemma RemoveReachesNothing(base: string, userId: string, mediaId: string)
    requires IsOrigin(base)
    ensures RouteOf(base, RemoveRequest(base, userId, mediaId)) == NotFound
  {
    FixedPaths();
    RoutedOnPath(base, Delete, "/remove-media", RemoveBody(userId, mediaId));
  }

  /** On a server addressed by a bare origin, upload and save reach their
      handlers; a load reaches the load
      handler with the same user id when that id is a plain path segment;
      the remove request reaches nothing, because the server defines no
      `/remove-media` route. */
  lemma RequestsReachTheirRoutes(base: string, file: FileRef, userId: string,
                                 items: seq<MediaItem>, mediaId: string)
    requires IsOrigin(base)
    ensures RouteOf(base, UploadRequest(base, file)) == UploadEndpoint
    ensures RouteOf(base, SaveRequest(base, userId, items)) == SaveEndpoint
    ensures IsPlainSegment(userId) ==>
              RouteOf(base, LoadRequest(base, userId)) == LoadEndpoint(userId)
    ensures RouteOf(base, RemoveRequest(base, userId, mediaId)) == NotFound
  {
    UploadReachesHandler(base, file);
    SaveReachesHandler(base, userId, items);
    RemoveReachesNothing(base, userId, mediaId);
    if IsPlainSegment(userId) {
      LoadReachesHandler(base, userId);
    }
  }

  /** The home page's own load, for user "a", reaches the load handler for
      that user. */
  lemma PageLoadReachesHandler(base: string)
    requires IsOrigin(base)
    ensures RouteOf(base, LoadRequest(base, HomePage.PageUserId)) == LoadEndpoint(HomePage.PageUserId)
  {
    assert IsPlainSegment(HomePage.PageUserId);
    LoadReachesHandler(base, HomePage.PageUserId);
  }

  /** User ids the URL parser would rewrite are not plain segments, and
      "./b" and "x/../b" hold dot segments. */
  lemma UrlShapeExamples()
    ensures !IsPlainSegment(".") && !IsPlainSegment("..")
    ensures !IsPlainSegment("a\\b") && !IsPlainSegment("a\tb") && !IsPlainSegment("a%2Fb")
    ensures HasDotSegment("./b") && HasDotSegment("x/../b")
  {
    assert "a\\b"[1] == '\\' && "a\tb"[1] == '\t' && "a%2Fb"[1] == '%';
    assert DotSegmentAt("./b", 0);
    assert DotSegmentAt("x/../b", 2);
  }

  /** The last occurrence of `c` is at `i` when `c` is at `i` and nowhere
      after it. */
  lemma LastAt(s: string, c: char, i: int)
    requires 0 <= i < |s| && s[i] == c
    requires forall j :: i < j < |s| ==> s[j] != c
    ensures LastIndexOf(s, c) == i
  {
  }

  /** The base `http://host`. */
  function HttpBase(host: string): string
  {
    "http://" + host
  }

  /** `http://host` is an origin exactly when `host` is a host. */
  lemma HttpOrigin(host: string)
    ensures IsOrigin(HttpBase(host)) <==> IsHost(host)
  {
    var base := HttpBase(host);
    assert base[..7] == "http://" && base[7..] == host;
    assert !StartsWith(base, "https://") by {
      assert base[4] == ':' && "https://"[4] == 's';
    }
  }

  /** A host whose last colon is at `k` splits there into domain and
      port. */
  lemma HostWithPort(s: string, k: int)
    requires 0 <= k < |s| && s[k] == ':'
    requires forall j :: k < j < |s| ==> s[j] != ':'
    ensures IsHost(s) <==> IsDomain(s[..k]) && IsPort(s[k + 1..])
  {
    LastAt(s, ':', k);
  }

  /** "localhost" is a domain name. */
  lemma LocalhostIsDomain()
    ensures IsDomain("localhost")
  {
    assert LastIndexOf("localhost", '.') == -1;
  }

  /** "localhost:8000" is a host. */
  lemma LocalhostPortIsHost()
    ensures IsHost("localhost:8000")
  {
    var host := "localhost:8000";
    HostWithPort(host, 9);
    assert host[..9] == "localhost";
    assert host[10..] == "8000";
    LocalhostIsDomain();
    Port8000();
  }

  /** "8000" is a port. */
  lemma Port8000()
    ensures IsPort("8000")
  {
    assert Text.DecimalValue("8") == 8 by { assert "8"[..0] == ""; }
    assert Text.DecimalValue("80") == 80 by { assert "80"[..1] == "8"; }
    assert Text.DecimalValue("800") == 800 by { assert "800"[..2] == "80"; }
    assert Text.DecimalValue("8000") == 8000 by { assert "8000"[..3] == "800"; }
  }

  /** Text holding a colon is no domain name. */
  lemma ColonNotDomain(s: string, i: int)
    requires 0 <= i < |s| && s[i] == ':'
    ensures !IsDomain(s)
  {
  }

  /** The default address, `http://localhost:8000`, is a bare origin. */
  lemma DefaultBaseIsOrigin()
    ensures IsOrigin(DefaultBaseUrl)
  {
    assert DefaultBaseUrl == HttpBase("localhost:8000");
    HttpOrigin("localhost:8000");
    LocalhostPortIsHost();
  }

  /** An empty base and one with a trailing slash are not bare origins. */
  lemma NotOriginExamples()
    ensures !IsOrigin(BaseUrl(Outcomes.Some("")))
    ensures !IsOrigin(HttpBase("localhost:8000/"))
  {
    var host := "localhost:8000/";
    HttpOrigin(host);
    HostWithPort(host, 9);
    assert host[10..][4] == '/';
  }

  /** A port that is not a number is rejected. */
  lemma LetterPortNotOrigin()
    ensures !IsOrigin(HttpBase("a:b"))
  {
    var host := "a:b";
    HttpOrigin(host);
    HostWithPort(host, 1);
    assert host[2..][0] == 'b';
  }

  /** Two ports are rejected. */
  lemma TwoPortsNotOrigin()
    ensures !IsOrigin(HttpBase("localhost:8000:9000"))
  {
    var host := "localhost:8000:9000";
    HttpOrigin(host);
    HostWithPort(host, 14);
    var domain := host[..14];
    assert domain == "localhost:8000";
    ColonNotDomain(domain, 9);
  }

  /** "99999" exceeds the largest port. */
  lemma Port99999()
    ensures !IsPort("99999")
  {
    assert Text.DecimalValue("9") == 9 by { assert "9"[..0] == ""; }
    assert Text.DecimalValue("99") == 99 by { assert "99"[..1] == "9"; }
    assert Text.DecimalValue("999") == 999 by { assert "999"[..2] == "99"; }
    assert Text.DecimalValue("9999") == 9999 by { assert "9999"[..3] == "999"; }
    assert Text.DecimalValue("99999") == 99999 by { assert "99999"[..4] == "9999"; }
  }

  /** A port above 65535 is rejected. */
  lemma LargePortNotOrigin()
    ensures !IsOrigin(HttpBase("localhost:99999"))
  {
    var host := "localhost:99999";
    HttpOrigin(host);
    HostWithPort(host, 9);
    assert host[10..] == "99999";
    Port99999();
  }

  /** "6000" is a bad port. */
  lemma Port6000()
    ensures !IsPort("6000")
  {
    assert Text.DecimalValue("6") == 6 by { assert "6"[..0] == ""; }
    assert Text.DecimalValue("60") == 60 by { assert "60"[..1] == "6"; }
    assert Text.DecimalValue("600") == 600 by { assert "600"[..2] == "60"; }
    assert Text.DecimalValue("6000") == 6000 by { assert "6000"[..3] == "600"; }
  }

  /** A port Fetch blocks is rejected. */
  lemma BadPortNotOrigin()
    ensures !IsOrigin(HttpBase("localhost:6000"))
  {
    var host := "localhost:6000";
    HttpOrigin(host);
    HostWithPort(host, 9);
    assert host[10..] == "6000";
    Port6000();
  }

  /** A host with the punycode prefix is rejected. */
  lemma PunycodeHostNotOrigin()
    ensures !IsOrigin(HttpBase("xn--a"))
  {
    var host := "xn--a";
    HttpOrigin(host);
    assert ':' !in host;
    assert PunycodeAt(host, 0);
  }

  /** The punycode prefix is recognised in upper case and after a dot. */
  lemma UpperPunycodeNotOrigin()
    ensures !IsOrigin(HttpBase("www.XN--a.com"))
  {
    var host := "www.XN--a.com";
    HttpOrigin(host);
    assert ':' !in host;
    assert host[3] == '.' && host[4] == 'X' && host[5] == 'N' && host[6] == '-' && host[7] == '-';
    assert PunycodeAt(host, 4);
  }

  /** A numeric last label, as in an IPv4 address, is rejected. */
  lemma NumericHostNotOrigin()
    ensures !IsOrigin(HttpBase("1.2.3.256"))
  {
    var host := "1.2.3.256";
    HttpOrigin(host);
    assert ':' !in host;
    LastAt(host, '.', 5);
    assert host[6] == '2';
  }

  /** `loadPortfolio` does not encode the user id, so an id made of
      unreserved characters and slashes, with a slash inside it, no dot
      segment and no trailing slash, never reaches the load handler: the
      user's list cannot be fetched. */
  lemma SlashInUserIdMissesLoad(base: string, userId: string)
    requires IsOrigin(base)
    requires '/' in userId && userId[|userId| - 1] != '/' && !HasDotSegment(userId)
    requires forall i :: 0 <= i < |userId| ==> IsUnreserved(userId[i]) || userId[i] == '/'
    ensures RouteOf(base, LoadRequest(base, userId)) == NotFound
  {
    var path := "/load-portfolio/" + userId;
    NoMarkers(userId);
    Seqs.ConcatAssoc(base, "/load-portfolio/", userId);
    RoutedOnPath(base, Get, path, NoBody);
    LoadPath(userId);
  }

  /** A uuid as `str(uuid.uuid4())` prints it: lower-case hexadecimal
      digits and hyphens. */
  predicate IsUuidText(s: string)
  {
    s != [] && forall i :: 0 <= i < |s| ==> ('0' <= s[i] <= '9') || ('a' <= s[i] <= 'f') || s[i] == '-'
  }

  /** The saved name of an uploaded file is a plain path segment when the
      uuid is uuid text and the original extension holds only unreserved
      characters: it starts with a uuid character, so it is no dot
      segment. */
  lemma {:induction false} SavedNameIsPlain(filename: string, contentType: string, uuid: string)
    requires IsUuidText(uuid)
    requires AllUnreserved(SplitExt(filename).1)
    ensures IsPlainSegment(Backend.UploadFile(filename, contentType, uuid).filename)
  {
    var name := Backend.UploadFile(filename, contentType, uuid).filename;
    var ext := SplitExt(filename).1;
    assert name == uuid + ext;
    assert name[0] == uuid[0] && name[0] != '.';
    forall k | 0 <= k < |name| ensures IsUnreserved(name[k]) {
      if k >= |uuid| {
        assert name[k] == ext[k - |uuid|];
      }
    }
  }

  /** A GET of `/uploads/<name>` for a non-empty plain name reaches the
      static file of that name. */
  lemma StaticPath(name: string)
    requires name != []
    ensures Route(Get, "/uploads/" + name) == StaticFile(name)
  {
    var path := "/uploads/" + name;
    assert !StartsWith(path, "/load-portfolio/") by {
      assert path[1] != "/load-portfolio/"[1];
    }
    assert path[..|"/uploads/"|] == "/uploads/";
    assert path[|"/uploads/"|..] == name;
  }

  /** An uploaded file's address as the client records it is the server's
      static address of the saved file under the client's base, and a GET
      of it reaches the static file the server saved, provided the base is
      a bare origin and the original extension holds only unreserved
      characters. */
  lemma UploadedFileIsServed(base: string, filename: string, contentType: string,
                             uuid: string, status: int)
    requires IsOk(status) && IsOrigin(base) && IsUuidText(uuid)
    requires AllUnreserved(SplitExt(filename).1)
    ensures var saved := Backend.UploadFile(filename, contentType, uuid);
            var r := Api.UploadFile(base, Reply(status, saved));
            && r.Ok?
            && r.value.url == base + saved.url
            && RouteOf(base, Request(Get, r.value.url, NoBody)) == StaticFile(saved.filename)
  {
    var saved := Backend.UploadFile(filename, contentType, uuid);
    SavedNameIsPlain(filename, contentType, uuid);
    NoMarkers(saved.filename);
    var path := "/uploads/" + saved.filename;
    assert '?' !in path && '#' !in path;
    Seqs.ConcatAssoc(base, "/uploads/", saved.filename);
    RoutedOnPath(base, Get, path, NoBody);
    StaticPath(saved.filename);
  }

  /** What the client holds after `LOAD_ITEMS` of a stored item: every
      field the server sent back, and no `url`, which the client sees as
      undefined and which is written here as the empty string. */
  function AsClientItem(x: StoredItem): (m: MediaItem)
    ensures Validate(m) == x
    ensures m.url == ""
  {
    MediaItem(x.id, x.filename, x.mediaType, x.title, x.description, x.category, "")
  }

  /** The client's view of a loaded list, item by item. */
  function AsClientItems(xs: seq<StoredItem>): (ms: seq<MediaItem>)
    ensures |ms| == |xs|
    ensures forall i :: 0 <= i < |xs| ==> ms[i] == AsClientItem(xs[i])
  {
    if |xs| == 0 then [] else [AsClientItem(xs[0])] + AsClientItems(xs[1..])
  }

  /** As written, the server's schema has no `url`, so reloading a saved
      portfolio loses every item's address: whenever some saved item had
      one, the list that comes back differs from the list that was saved,
      and the item at that position has no address. */
  lemma ReloadLosesUrl(db: Db, userId: string, items: seq<MediaItem>, i: int)
    requires 0 <= i < |items| && items[i].url != ""
    ensures var back := AsClientItems(LoadPortfolio(SavePortfolio(db, userId, items), userId));
            |back| == |items| && back[i].url == "" && back != items
  {
    LoadAfterSave(db, userId, items);
  }

  /** The smallest case: one uploaded item, saved and reloaded. */
  lemma ReloadLosesUrlExample(db: Db)
    ensures var item := MediaItem("u1", "u1.png", "image", "Dawn", "Sunrise", "Photography",
                                  "http://localhost:8000/uploads/u1.png");
            AsClientItems(LoadPortfolio(SavePortfolio(db, "a", [item]), "a"))
              == [item.(url := "")]
  {
  }

  /** The schema the client's records evidently call for: `url` is one of
      its fields, so validation keeps every field of the item. */
  function ValidateWithUrl(x: MediaItem): (s: MediaItem)
    ensures Validate(s) == Validate(x)
    ensures s.url == x.url
  {
    MediaItem(x.id, x.filename, x.mediaType, x.title, x.description, x.category, x.url)
  }

  /** Storage under the corrected schema. */
  type DbWithUrl = map<string, seq<MediaItem>>

  /** `save_portfolio` under the corrected schema. */
  function SaveWithUrl(db: DbWithUrl, userId: string, items: seq<MediaItem>): (r: DbWithUrl)
    ensures r.Keys == db.Keys + {userId}
    ensures |r[userId]| == |items|
    ensures forall i :: 0 <= i < |items| ==> r[userId][i] == ValidateWithUrl(items[i])
    ensures forall u :: u in db && u != userId ==> r[u] == db[u]
  {
    db[userId := seq(|items|, i requires 0 <= i < |items| => ValidateWithUrl(items[i]))]
  }

  /** With `url` in the schema, a reload gives back exactly what was
      saved, and the saved list's items are served as before. */
  lemma {:induction false} ReloadKeepsItems(db: DbWithUrl, userId: string, items: seq<MediaItem>)
    ensures LoadPortfolio(SaveWithUrl(db, userId, items), userId) == items
  {
    var back := LoadPortfolio(SaveWithUrl(db, userId, items), userId);
    assert |back| == |items|;
    forall i | 0 <= i < |items| ensures back[i] == items[i] {
      assert back[i] == ValidateWithUrl(items[i]);
    }
  }

  /** With `url` in the schema, the page's load on mount after an
      auto-save of a non-empty list shows exactly the saved list, addresses
      included. */
  lemma PageReloadShowsSavedItems(db: DbWithUrl, base: string, userId: string,
                                  items: seq<MediaItem>, s: PortfolioContext.State, status: int)
    requires |items| > 0 && IsOk(status)
    ensures var save := HomePage.AutoSave(base, userId, items);
            && save.Some?
            && var stored := SaveWithUrl(db, save.value.body.userId, save.value.body.items);
               HomePage.OnLoaded(s, Reply(status, LoadBody(LoadPortfolio(stored, userId)))).items == items
  {
    ReloadKeepsItems(db, userId, items);
  }
}

=== FILE: grouping.dfy ===
/** The home page's `groupedItems` derivation (frontend/app/page.tsx): items
    are bucketed by category into a JavaScript object, in visiting order,
    and the object's entries are then sorted by key.

    The object is modelled as an ordered map (`Buckets`): a clean `map` plus
    the order in which keys were first inserted. Prototype keys such as
    "constructor" and integer-like keys, which a plain JavaScript object
    treats specially, are not covered. */
module Grouping {
  import opened Media
  import opened Seqs
  import opened StringOrder

  /** The key an item with an empty category is filed under. */
  const Uncategorized: string := "Uncategorized"

  /** `item.category || "Uncategorized"`: the category as written, with the
      empty string normalised. */
  function GroupKey(item: MediaItem): (k: string)
    ensures k != ""
    ensures item.category != "" ==> k == item.category
    ensures k == Uncategorized <==> item.category in {"", Uncategorized}
  {
    if item.category == "" then Uncategorized else item.category
  }

  /** The distinct normalised categories of `items`. */
  function KeySet(items: seq<MediaItem>): set<string>
  {
    set x | x in items :: GroupKey(x)
  }

  /** Reference definition of one group: `items` filtered down to those
      filed under `key`. */
  function ItemsIn(items: seq<MediaItem>, key: string): seq<MediaItem>
  {
    if |items| == 0 then []
    else (if GroupKey(items[0]) == key then [items[0]] else []) + ItemsIn(items[1..], key)
  }

  /** A group holds exactly the items filed under its key, in the order
      they appear in `items`. */
  lemma {:induction false} ItemsInIsOrderedFilter(items: seq<MediaItem>, key: string)
    ensures forall x :: x in ItemsIn(items, key) <==> x in items && GroupKey(x) == key
    ensures IsSubsequence(ItemsIn(items, key), items)
  {
    if |items| > 0 {
      var rest := ItemsIn(items[1..], key);
      ItemsInIsOrderedFilter(items[1..], key);
      assert items == [items[0]] + items[1..];
      if GroupKey(items[0]) == key {
        assert ([items[0]] + rest)[1..] == rest;
      } else {
        assert ItemsIn(items, key) == rest;
      }
    }
  }

  /** The bucket object: keys in first-insertion order, and their lists. */
  datatype Buckets = Buckets(order: seq<string>, byKey: map<string, seq<MediaItem>>)

  /** The bucket object is consistent: its order lists every key once. */
  ghost predicate Valid(b: Buckets)
  {
    Distinct(b.order) && (set k | k in b.order) == b.byKey.Keys
  }

  /** The list filed under `key`, or the empty list when there is none. */
  function Lookup(b: Buckets, key: string): seq<MediaItem>
  {
    if key in b.byKey then b.byKey[key] else []
  }

  /** One `forEach` step: create the bucket on first sight of its key, then
      push the item onto it. */
  function Push(b: Buckets, item: MediaItem): (r: Buckets)
    requires Valid(b)
    ensures Valid(r)
    ensures r.byKey.Keys == b.byKey.Keys + {GroupKey(item)}
  {
    var k := GroupKey(item);
    var order := if k in b.byKey then b.order else b.order + [k];
    var r := Buckets(order, b.byKey[k := Lookup(b, k) + [item]]);
    assert (set x | x in order) == (set x | x in b.order) + {k};
    r
  }

  /** The `forEach` over `items`, continuing from bucket object `b`: the
      object stays consistent and gains a bucket for every category met. */
  function CollectFrom(b: Buckets, items: seq<MediaItem>): (r: Buckets)
    requires Valid(b)
    ensures Valid(r)
    ensures r.byKey.Keys == b.byKey.Keys + KeySet(items)
    decreases |items|
  {
    if |items| == 0 then b
    else
      var x, rest := items[0], items[1..];
      assert KeySet(items) == {GroupKey(x)} + KeySet(rest) by {
        assert items == [x] + rest;
      }
      CollectFrom(Push(b, x), rest)
  }

  /** Pushing an item extends its own bucket by that item and no other. */
  lemma PushLookup(b: Buckets, x: MediaItem, k: string)
    requires Valid(b)
    ensures Lookup(Push(b, x), k) == Lookup(b, k) + (if k == GroupKey(x) then [x] else [])
  {
  }

  /** Each bucket ends up holding what it held before followed by exactly
      the items of its group, in order. */
  lemma {:induction false} CollectFromLookup(b: Buckets, items: seq<MediaItem>, k: string)
    requires Valid(b)
    ensures Lookup(CollectFrom(b, items), k) == Lookup(b, k) + ItemsIn(items, k)
    decreases |items|
  {
    if |items| > 0 {
      var x, rest := items[0], items[1..];
      var b' := Push(b, x);
      PushLookup(b, x, k);
      CollectFromLookup(b', rest, k);
      assert CollectFrom(b, items) == CollectFrom(b', rest);
      if k == GroupKey(x) {
        assert ItemsIn(items, k) == [x] + ItemsIn(rest, k);
        assert Lookup(b', k) == Lookup(b, k) + [x];
        ConcatAssoc(Lookup(b, k), [x], ItemsIn(rest, k));
      } else {
        assert ItemsIn(items, k) == ItemsIn(rest, k);
        assert Lookup(b', k) == Lookup(b, k);
      }
    }
  }

  /** The bucket object built from the whole item list: one bucket per
      normalised category, holding the reference group. */
  function Collect(items: seq<MediaItem>): (r: Buckets)
    ensures Valid(r)
    ensures r.byKey.Keys == KeySet(items)
    ensures forall k :: k in r.byKey ==> r.byKey[k] == ItemsIn(items, k)
  {
    var empty := Buckets([], map[]);
    var r := CollectFrom(empty, items);
    assert forall k :: k in r.byKey ==> r.byKey[k] == ItemsIn(items, k) by {
      forall k | k in r.byKey ensures r.byKey[k] == ItemsIn(items, k) {
        CollectFromLookup(empty, items, k);
      }
    }
    r
  }

  /** One rendered section: a category and its items. */
  datatype Group = Group(key: string, items: seq<MediaItem>)

  /** A reordering of the insertion order lists exactly the bucket keys. */
  lemma SameKeys(b: Buckets, keys: seq<string>)
    requires Valid(b)
    requires multiset(keys) == multiset(b.order)
    ensures forall k :: k in keys <==> k in b.byKey
  {
    forall k ensures k in keys <==> k in b.byKey {
      assert k in keys <==> k in multiset(keys);
      assert k in b.order <==> k in multiset(b.order);
      assert k in b.order <==> k in (set x | x in b.order);
    }
  }

  /** `Object.entries(groups).sort(...)`: every bucket once, keys in strictly
      ascending order. */
  function SortedEntries(b: Buckets): (r: seq<Group>)
    requires Valid(b)
    ensures forall i, j :: 0 <= i < j < |r| ==> Less(r[i].key, r[j].key)
    ensures forall i :: 0 <= i < |r| ==> r[i].key in b.byKey && r[i].items == b.byKey[r[i].key]
    ensures (set i | 0 <= i < |r| :: r[i].key) == b.byKey.Keys
  {
    var keys := Sort(b.order);
    SameKeys(b, keys);
    var r := seq(|keys|, i requires 0 <= i < |keys| => Group(keys[i], b.byKey[keys[i]]));
    EntryKeys(r, keys, b.byKey.Keys);
    r
  }

  /** Entries listed along `keys` carry exactly the keys of `keys`. */
  lemma EntryKeys(r: seq<Group>, keys: seq<string>, all: set<string>)
    requires |r| == |keys|
    requires forall i :: 0 <= i < |r| ==> r[i].key == keys[i]
    requires forall k :: k in keys <==> k in all
    ensures (set i | 0 <= i < |r| :: r[i].key) == all
  {
    forall k | k in all ensures k in (set i | 0 <= i < |r| :: r[i].key) {
      var i :| 0 <= i < |keys| && keys[i] == k;
      assert r[i].key == k;
    }
  }

  /** `groupedItems`: keys come out strictly ascending (so no key twice),
      they are exactly the normalised categories present, and each group
      holds the items filed under its key, non-empty and in their original
      relative order. */
  function GroupedItems(items: seq<MediaItem>): (r: seq<Group>)
    ensures forall i, j :: 0 <= i < j < |r| ==> Less(r[i].key, r[j].key)
    ensures forall i :: 0 <= i < |r| ==> r[i].items == ItemsIn(items, r[i].key)
    ensures forall i :: 0 <= i < |r| ==> |r[i].items| > 0
    ensures (set i | 0 <= i < |r| :: r[i].key) == KeySet(items)
  {
    var r := SortedEntries(Collect(items));
    forall i | 0 <= i < |r| ensures |r[i].items| > 0 {
      PresentKeyHasItems(items, r[i].key);
    }
    r
  }

  /** A normalised category that occurs has at least one item. */
  lemma PresentKeyHasItems(items: seq<MediaItem>, k: string)
    requires k in KeySet(items)
    ensures |ItemsIn(items, k)| > 0
  {
    var x :| x in items && GroupKey(x) == k;
    ItemsInIsOrderedFilter(items, k);
    assert x in ItemsIn(items, k);
  }

  /** The group keys in display order. */
  function KeysOf(gs: seq<Group>): (ks: seq<string>)
    ensures |ks| == |gs|
    ensures forall i :: 0 <= i < |gs| ==> ks[i] == gs[i].key
  {
    seq(|gs|, i requires 0 <= i < |gs| => gs[i].key)
  }

  /** All items of all groups, group after group. */
  function Flatten(gs: seq<Group>): seq<MediaItem>
  {
    if |gs| == 0 then [] else gs[0].items + Flatten(gs[1..])
  }

  /** The items filed under the keys `ks`, as a bag. */
  ghost function BagOver(items: seq<MediaItem>, ks: seq<string>): multiset<MediaItem>
  {
    if |ks| == 0 then multiset{} else multiset(ItemsIn(items, ks[0])) + BagOver(items, ks[1..])
  }

  /** Putting one item in front adds it to the bag once if its key is listed
      (and listed once), and not at all otherwise. */
  lemma {:induction false} BagOverCons(x: MediaItem, rest: seq<MediaItem>, ks: seq<string>)
    requires Distinct(ks)
    ensures BagOver([x] + rest, ks)
            == BagOver(rest, ks) + (if GroupKey(x) in ks then multiset{x} else multiset{})
  {
    if |ks| > 0 {
      var tail := ks[1..];
      DistinctTail(ks);
      BagOverCons(x, rest, tail);
      assert ([x] + rest)[1..] == rest;
      assert GroupKey(x) in ks <==> GroupKey(x) == ks[0] || GroupKey(x) in tail by {
        assert ks == [ks[0]] + tail;
      }
    }
  }

  /** When the keys list every normalised category once, the bag over them
      is exactly the bag of items. */
  lemma {:induction false} BagOverAll(items: seq<MediaItem>, ks: seq<string>)
    requires Distinct(ks)
    requires forall x :: x in items ==> GroupKey(x) in ks
    ensures BagOver(items, ks) == multiset(items)
  {
    if |items| == 0 {
      BagOverEmpty(ks);
    } else {
      var x, rest := items[0], items[1..];
      assert items == [x] + rest;
      BagOverAll(rest, ks);
      BagOverCons(x, rest, ks);
    }
  }

  /** No items, nothing in any group. */
  lemma {:induction false} BagOverEmpty(ks: seq<string>)
    ensures BagOver([], ks) == multiset{}
  {
    if |ks| > 0 {
      BagOverEmpty(ks[1..]);
    }
  }

  /** Groups whose lists are the reference groups flatten to the bag over
      their keys. */
  lemma {:induction false} FlattenBag(items: seq<MediaItem>, gs: seq<Group>)
    requires forall i :: 0 <= i < |gs| ==> gs[i].items == ItemsIn(items, gs[i].key)
    ensures multiset(Flatten(gs)) == BagOver(items, KeysOf(gs))
  {
    if |gs| > 0 {
      FlattenBag(items, gs[1..]);
      assert KeysOf(gs)[1..] == KeysOf(gs[1..]);
    }
  }

  /** Concatenating the groups gives back the input up to order: nothing is
      lost, nothing is duplicated, and the group sizes add up to the item
      count. */
  lemma GroupingIsPermutation(items: seq<MediaItem>)
    ensures multiset(Flatten(GroupedItems(items))) == multiset(items)
    ensures |Flatten(GroupedItems(items))| == |items|
  {
    var gs := GroupedItems(items);
    var ks := KeysOf(gs);
    SortedKeysDistinct(gs);
    assert forall x :: x in items ==> GroupKey(x) in ks by {
      forall x | x in items ensures GroupKey(x) in ks {
        assert GroupKey(x) in KeySet(items);
        var i :| 0 <= i < |gs| && gs[i].key == GroupKey(x);
        assert ks[i] == GroupKey(x);
      }
    }
    FlattenBag(items, gs);
    BagOverAll(items, ks);
    assert |multiset(Flatten(gs))| == |Flatten(gs)|;
  }

  /** Keys in strictly ascending order are pairwise different. */
  lemma SortedKeysDistinct(gs: seq<Group>)
    requires forall i, j :: 0 <= i < j < |gs| ==> Less(gs[i].key, gs[j].key)
    ensures Distinct(KeysOf(gs))
  {
    var ks := KeysOf(gs);
    forall i, j | 0 <= i < j < |ks| ensures ks[i] != ks[j] {
      LessTotal(ks[i], ks[j]);
      assert Less(gs[i].key, gs[j].key);
    }
  }

  /** The set of a group list's keys, two ways. */
  lemma KeysOfSet(gs: seq<Group>)
    ensures (set k | k in KeysOf(gs)) == (set i | 0 <= i < |gs| :: gs[i].key)
  {
    var ks := KeysOf(gs);
    forall k | k in ks ensures k in (set i | 0 <= i < |gs| :: gs[i].key) {
      var i :| 0 <= i < |ks| && ks[i] == k;
      assert gs[i].key == k;
    }
    forall k | k in (set i | 0 <= i < |gs| :: gs[i].key) ensures k in ks {
      var i :| 0 <= i < |gs| && gs[i].key == k;
      assert ks[i] == k;
    }
  }

  /** There are exactly as many groups as distinct normalised categories. */
  lemma GroupCountIsCategoryCount(items: seq<MediaItem>)
    ensures |GroupedItems(items)| == |KeySet(items)|
  {
    var gs := GroupedItems(items);
    SortedKeysDistinct(gs);
    DistinctCardinality(KeysOf(gs));
    KeysOfSet(gs);
  }

  /** Every item lands in the one group keyed by its normalised category. */
  lemma ItemInItsGroup(items: seq<MediaItem>, x: MediaItem)
    requires x in items
    ensures exists i :: 0 <= i < |GroupedItems(items)|
                        && GroupedItems(items)[i].key == GroupKey(x)
                        && x in GroupedItems(items)[i].items
  {
    var gs := GroupedItems(items);
    assert GroupKey(x) in KeySet(items);
    var i :| 0 <= i < |gs| && gs[i].key == GroupKey(x);
    ItemsInIsOrderedFilter(items, GroupKey(x));
    assert x in gs[i].items;
  }

  /** The two reference groups of the stability example. */
  lemma ExampleGroups(i1: MediaItem, i2: MediaItem, i3: MediaItem)
    requires i1.category == "B" && i2.category == "A" && i3.category == "B"
    ensures ItemsIn([i1, i2, i3], "A") == [i2]
    ensures ItemsIn([i1, i2, i3], "B") == [i1, i3]
  {
    assert [i1, i2, i3][1..] == [i2, i3];
    assert [i2, i3][1..] == [i3];
    assert [i3][1..] == [];
    assert ItemsIn([i3], "A") == [];
    assert ItemsIn([i3], "B") == [i3];
    assert ItemsIn([i2, i3], "A") == [i2];
    assert ItemsIn([i2, i3], "B") == [i3];
  }

  /** Two groups with keys "A" and "B" in ascending order come as "A", "B". */
  lemma TwoKeyOrder(gs: seq<Group>)
    requires |gs| == 2 && Less(gs[0].key, gs[1].key)
    requires (set i | 0 <= i < |gs| :: gs[i].key) == {"A", "B"}
    ensures gs[0].key == "A" && gs[1].key == "B"
  {
    assert gs[0].key in {"A", "B"} && gs[1].key in {"A", "B"};
    assert !Less("B", "A");
    LessIrreflexive(gs[0].key);
  }

  /** The categories of the stability example. */
  lemma ExampleKeySet(i1: MediaItem, i2: MediaItem, i3: MediaItem)
    requires i1.category == "B" && i2.category == "A" && i3.category == "B"
    ensures KeySet([i1, i2, i3]) == {"A", "B"}
  {
    var items := [i1, i2, i3];
    assert forall x :: x in items ==> x == i1 || x == i2 || x == i3;
    assert GroupKey(i1) == "B" && GroupKey(i2) == "A" && GroupKey(i3) == "B";
    assert i1 in items && i2 in items;
  }

  /** Grouping is stable: items 1 and 3 in "B" and item 2 in "A" give the
      "A" group first, and "B" keeps 1 before 3. */
  lemma StableGroupingExample(i1: MediaItem, i2: MediaItem, i3: MediaItem)
    requires i1.category == "B" && i2.category == "A" && i3.category == "B"
    ensures GroupedItems([i1, i2, i3]) == [Group("A", [i2]), Group("B", [i1, i3])]
  {
    var items := [i1, i2, i3];
    ExampleKeySet(i1, i2, i3);
    GroupCountIsCategoryCount(items);
    ExampleGroups(i1, i2, i3);
    ExampleShape(items, GroupedItems(items), [i2], [i1, i3]);
  }

  /** Two sorted groups keyed "A" and "B" that hold the reference lists
      are exactly those two groups. */
  lemma ExampleShape(items: seq<MediaItem>, gs: seq<Group>, a: seq<MediaItem>, b: seq<MediaItem>)
    requires |gs| == 2 && Less(gs[0].key, gs[1].key)
    requires (set i | 0 <= i < |gs| :: gs[i].key) == {"A", "B"}
    requires forall i :: 0 <= i < |gs| ==> gs[i].items == ItemsIn(items, gs[i].key)
    requires ItemsIn(items, "A") == a && ItemsIn(items, "B") == b
    ensures gs == [Group("A", a), Group("B", b)]
  {
    TwoKeyOrder(gs);
  }
}

=== FILE: home_page.dfy ===
/** The home page's logic (frontend/app/page.tsx): load on mount, the
    auto-save effect, and the overview figures derived from the items. */
module HomePage {
  import opened Outcomes
  import opened Media
  import opened PortfolioContext
  import opened Grouping
  import opened Api
  import Text

  /** The user id the page loads and saves under. */
  const PageUserId: string := "a"

  /** The mount effect once `loadPortfolio` settles: an ok reply dispatches
      `LOAD_ITEMS` with its `items`; a failure is only logged and the state
      stays as it was. */
  function OnLoaded(s: State, reply: Reply<LoadBody>): (r: State)
    ensures Settle(reply, LoadFailed).Ok? ==> r.items == reply.body.items
    ensures Settle(reply, LoadFailed).Err? ==> r == s
  {
    match Settle(reply, LoadFailed)
    case Ok(body) => Reduce(s, LoadItems(body.items))
    case Err(_) => s
  }

  /** The page's first render: the store starts empty, so after the load
      on mount it shows the loaded items, or nothing when the load
      failed. */
  lemma MountShowsLoadedItems(reply: Reply<LoadBody>)
    ensures Settle(reply, LoadFailed).Ok? ==> OnLoaded(InitialState, reply).items == reply.body.items
    ensures Settle(reply, LoadFailed).Err? ==> OnLoaded(InitialState, reply).items == []
  {
  }

  /** The auto-save effect run whenever `items` changes: a save request is
      issued exactly when the list is non-empty, and it carries the list
      as it is. */
  function AutoSave(base: string, userId: string, items: seq<MediaItem>): (r: Option<Request>)
    ensures r.Some? <==> |items| > 0
    ensures r.Some? ==> r.value.verb == Post && r.value.body == SaveBody(userId, items)
  {
    if |items| > 0 then Some(SaveRequest(base, userId, items)) else None
  }

  /** Emptying the list never reaches the server: neither `CLEAR` nor the
      removal of an id every item carries triggers a save, so the server
      keeps the last non-empty list. */
  lemma EmptyingIsNotPersisted(s: State, id: string, base: string, userId: string)
    requires forall x :: x in s.items ==> x.id == id
    ensures AutoSave(base, userId, Reduce(s, RemoveItem(id)).items).None?
    ensures AutoSave(base, userId, Reduce(s, Clear).items).None?
  {
    var r := Reduce(s, RemoveItem(id)).items;
    assert forall i :: 0 <= i < |r| ==> r[i] in s.items && r[i].id != id;
    assert |r| == 0;
  }

  /** Decimal digits of a natural number, as string interpolation prints
      it: digits only, read back as `n`, and no leading zero. */
  function NatToString(n: nat): (r: string)
    ensures |r| > 0 && Text.AllDigits(r)
    ensures Text.DecimalValue(r) == n
    ensures r[0] == '0' ==> r == "0"
    decreases n
  {
    var digit := "0123456789"[n % 10];
    assert digit as int - '0' as int == n % 10;
    if n < 10 then
      assert [digit][..0] == [];
      [digit]
    else
      var front := NatToString(n / 10);
      var r := front + [digit];
      assert r[..|r| - 1] == front;
      r
  }

  /** The noun after the total: singular only for exactly one item. */
  function PieceWord(n: nat): (w: string)
    ensures w == "piece" <==> n == 1
    ensures w == "pieces" <==> n != 1
  {
    if n == 1 then "piece" else "pieces"
  }

  /** The figures the page shows for an item list. */
  datatype Overview = Overview(
    totalItems: nat,
    categoryCount: nat,
    showOverview: bool,
    showEmptyState: bool,
    summary: string)

  /** `totalItems`, `categoryCount` (the number of entries of
      `groupedItems`), the two mutually exclusive panels, and the overview
      sentence. The category count is the number of distinct normalised
      categories. */
  function PageOverview(items: seq<MediaItem>): (o: Overview)
    ensures o.totalItems == |items|
    ensures o.categoryCount == |KeySet(items)|
    ensures o.showEmptyState <==> |items| == 0
    ensures o.showOverview <==> |items| > 0
    ensures o.summary == Summary(o.totalItems, o.categoryCount)
  {
    GroupCountIsCategoryCount(items);
    var total := |items|;
    var count := |GroupedItems(items)|;
    Overview(total, count, total > 0, total == 0, Summary(total, count))
  }

  /** The overview sentence under the heading: the total in decimal, the
      noun (singular only for one), and the category count in decimal,
      each number without leading zeros,
      followed by "categories" whatever the count. */
  function Summary(total: nat, categories: nat): (r: string)
    ensures exists a, w, b ::
              && r == a + " total " + w + " across " + b + " categories"
              && a != [] && Text.AllDigits(a) && Text.DecimalValue(a) == total
              && (a[0] == '0' ==> a == "0")
              && (w == "piece" <==> total == 1) && (w == "pieces" <==> total != 1)
              && b != [] && Text.AllDigits(b) && Text.DecimalValue(b) == categories
              && (b[0] == '0' ==> b == "0")
  {
    var a := NatToString(total);
    var w := PieceWord(total);
    var b := NatToString(categories);
    a + " total " + w + " across " + b + " categories"
  }

  /** Two items in two categories read "2 total pieces across 2
      categories". */
  lemma OverviewExample(a: MediaItem, b: MediaItem)
    requires a.category == "Photography" && b.category == "Videos"
    ensures PageOverview([a, b]).summary == "2 total pieces across 2 categories"
  {
    TwoCategories(a, b);
    SummaryOfTwo();
  }

  /** The example's items fall in two categories. */
  lemma TwoCategories(a: MediaItem, b: MediaItem)
    requires a.category == "Photography" && b.category == "Videos"
    ensures |KeySet([a, b])| == 2
  {
    var items := [a, b];
    assert forall x :: x in items ==> x == a || x == b;
    assert a in items && b in items;
    assert KeySet(items) == {"Photography", "Videos"};
  }

  /** The sentence for two pieces in two categories. */
  lemma SummaryOfTwo()
    ensures Summary(2, 2) == "2 total pieces across 2 categories"
  {
    assert "0123456789"[2] == '2';
    assert NatToString(2) == "2";
    assert PieceWord(2) == "pieces";
  }
}

=== FILE: media.dfy ===
/** Records that cross the client/server boundary: the front end's
    `MediaItem` (frontend/types/index.ts), the body `/upload` answers with,
    and the HTTP methods the client uses. */
module Media {

  /** One portfolio entry as the client holds it. `mediaType` is "image" or
      "video"; `url` is the absolute address of the uploaded file. */
  datatype MediaItem = MediaItem(
    id: string,
    filename: string,
    mediaType: string,
    title: string,
    description: string,
    category: string,
    url: string)

  /** The JSON object `/upload` answers with. */
  datatype UploadData = UploadData(id: string, filename: string, mediaType: string, url: string)

  /** HTTP request methods. */
  datatype Method = Get | Post | Delete
}

=== FILE: outcomes.dfy ===
/** Optional values and success/failure results, standing in for the
    source's `null` and for rejected promises. */
module Outcomes {

  datatype Option<+T> = None | Some(value: T)

  datatype Result<+T, +E> = Ok(value: T) | Err(error: E)
}

=== FILE: portfolio_context.dfy ===
/** The client's portfolio store: the `State` record, the four-action
    protocol and `portfolioReducer` (frontend/context/PortfolioContext.tsx). */
module PortfolioContext {
  import opened Media
  import opened Seqs

  /** The reducer state: the ordered list of items. */
  datatype State = State(items: seq<MediaItem>)

  /** The action union; each alternative carries the source's payload. */
  datatype Action =
    | AddItem(payload: MediaItem)
    | RemoveItem(id: string)
    | LoadItems(list: seq<MediaItem>)
    | Clear

  /** The state the provider starts from. */
  const InitialState: State := State([])

  /** How many items carry identifier `id`. */
  function CountId(items: seq<MediaItem>, id: string): (n: nat)
    ensures n <= |items|
    ensures n == 0 <==> forall x :: x in items ==> x.id != id
  {
    if |items| == 0 then 0
    else (if items[0].id == id then 1 else 0) + CountId(items[1..], id)
  }

  /** `items.filter(item => item.id !== id)`: the items whose identifier
      differs from `id`, all of them and in their original order. Every
      item carrying `id` is dropped, not only the first. */
  function WithoutId(items: seq<MediaItem>, id: string): (r: seq<MediaItem>)
    ensures forall x :: x in r <==> x in items && x.id != id
    ensures |r| == |items| - CountId(items, id)
    ensures IsSubsequence(r, items)
  {
    if |items| == 0 then []
    else if items[0].id == id then WithoutId(items[1..], id)
    else
      var rest := WithoutId(items[1..], id);
      assert ([items[0]] + rest)[1..] == rest;
      [items[0]] + rest
  }

  /** `portfolioReducer`: the next state after one action. */
  function Reduce(s: State, a: Action): (r: State)
    ensures a.AddItem? ==>
              && |r.items| == |s.items| + 1
              && r.items[..|s.items|] == s.items
              && r.items[|s.items|] == a.payload
    ensures a.RemoveItem? ==>
              && (forall x :: x in r.items <==> x in s.items && x.id != a.id)
              && |r.items| == |s.items| - CountId(s.items, a.id)
              && IsSubsequence(r.items, s.items)
    ensures a.LoadItems? ==> r.items == a.list
    ensures a.Clear? ==> r.items == []
  {
    match a
    case AddItem(p) => s.(items := s.items + [p])
    case RemoveItem(id) => s.(items := WithoutId(s.items, id))
    case LoadItems(xs) => s.(items := xs)
    case Clear => s.(items := [])
  }

  /** Removing an identifier no item carries leaves the list as it was. */
  lemma {:induction false} RemoveAbsentIsIdentity(items: seq<MediaItem>, id: string)
    requires forall x :: x in items ==> x.id != id
    ensures WithoutId(items, id) == items
  {
    if |items| > 0 {
      assert items[0] in items;
      RemoveAbsentIsIdentity(items[1..], id);
      assert items == [items[0]] + items[1..];
    }
  }

  /** Removing the same identifier twice is the same as removing it once. */
  lemma RemoveIdempotent(s: State, id: string)
    ensures Reduce(Reduce(s, RemoveItem(id)), RemoveItem(id)) == Reduce(s, RemoveItem(id))
  {
    RemoveAbsentIsIdentity(WithoutId(s.items, id), id);
  }

  /** Filtering distributes over concatenation. */
  lemma {:induction false} WithoutIdAppend(xs: seq<MediaItem>, ys: seq<MediaItem>, id: string)
    ensures WithoutId(xs + ys, id) == WithoutId(xs, id) + WithoutId(ys, id)
  {
    if |xs| > 0 {
      var zs := xs + ys;
      assert zs[0] == xs[0];
      assert zs[1..] == xs[1..] + ys;
      WithoutIdAppend(xs[1..], ys, id);
      if xs[0].id == id {
        calc {
          WithoutId(zs, id);
          WithoutId(zs[1..], id);
          WithoutId(xs[1..], id) + WithoutId(ys, id);
          WithoutId(xs, id) + WithoutId(ys, id);
        }
      } else {
        calc {
          WithoutId(zs, id);
          [xs[0]] + WithoutId(zs[1..], id);
          [xs[0]] + (WithoutId(xs[1..], id) + WithoutId(ys, id));
          ([xs[0]] + WithoutId(xs[1..], id)) + WithoutId(ys, id);
          WithoutId(xs, id) + WithoutId(ys, id);
        }
      }
    } else {
      assert xs + ys == ys;
    }
  }

  /** Adding an item whose identifier is fresh and then removing that
      identifier restores the original state. */
  lemma AddThenRemoveFresh(s: State, p: MediaItem)
    requires forall x :: x in s.items ==> x.id != p.id
    ensures Reduce(Reduce(s, AddItem(p)), RemoveItem(p.id)) == s
  {
    WithoutIdAppend(s.items, [p], p.id);
    RemoveAbsentIsIdentity(s.items, p.id);
    assert WithoutId([p], p.id) == [];
  }

  /** The state after dispatching `actions` in order. */
  function Run(s: State, actions: seq<Action>): State
    decreases |actions|
  {
    if |actions| == 0 then s else Run(Reduce(s, actions[0]), actions[1..])
  }

  /** Dispatching two batches in turn is dispatching their concatenation. */
  lemma {:induction false} RunAppend(s: State, first: seq<Action>, second: seq<Action>)
    ensures Run(s, first + second) == Run(Run(s, first), second)
    decreases |first|
  {
    if |first| == 0 {
      assert first + second == second;
    } else {
      assert (first + second)[1..] == first[1..] + second;
      RunAppend(Reduce(s, first[0]), first[1..], second);
    }
  }

  /** A `LOAD_ITEMS` wipes out everything dispatched before it: the final
      state depends only on its payload and on the actions after it. */
  lemma RunAfterLoad(s: State, before: seq<Action>, xs: seq<MediaItem>, after: seq<Action>)
    ensures Run(s, before + [LoadItems(xs)] + after) == Run(State(xs), after)
  {
    RunAppend(s, before + [LoadItems(xs)], after);
    RunAppend(s, before, [LoadItems(xs)]);
  }

  /** The payloads of a batch made only of `ADD_ITEM` actions. */
  function Payloads(actions: seq<Action>): seq<MediaItem>
    requires forall a :: a in actions ==> a.AddItem?
  {
    if |actions| == 0 then [] else [actions[0].payload] + Payloads(actions[1..])
  }

  /** A batch of additions appends its payloads, in dispatch order, behind
      the existing items. */
  lemma {:induction false} RunAddsOnly(s: State, actions: seq<Action>)
    requires forall a :: a in actions ==> a.AddItem?
    ensures Run(s, actions).items == s.items + Payloads(actions)
    decreases |actions|
  {
    if |actions| > 0 {
      assert actions[0] in actions;
      assert forall a :: a in actions[1..] ==> a in actions;
      RunAddsOnly(Reduce(s, actions[0]), actions[1..]);
      assert s.items + [actions[0].payload] + Payloads(actions[1..])
          == s.items + Payloads(actions);
    }
  }
}

=== FILE: portfolio_section.dfy ===
/** One collapsible category section (frontend/components/PortfolioSection.tsx):
    the icon and colour band chosen from the category's name, the section's
    open/selected state, and its count labels. The icon and gradient are
    named by what they show rather than by their glyph or CSS text. */
module PortfolioSection {
  import opened Outcomes
  import opened Media
  import opened Text

  /** The emoji shown beside the category name. */
  datatype Icon = Camera | MovieCamera | Palette | Pencil | FramedPicture | Dress | Masks | Folder

  /** The header's background: which pair of theme colours it blends. */
  datatype Gradient =
    | AccentToAccentHover      // photo, fine art
    | AccentHoverToAccent      // video, digital art
    | SecondaryToAccent        // design, fashion
    | SecondaryToBorder        // anything else

  /** A classification rule: names containing `keyword` get `result`. */
  datatype Rule<T> = Rule(keyword: string, result: T)

  /** Reference meaning of a rule table: the result of the first rule
      whose keyword occurs in `name`, or `fallback` when none does. */
  function FirstMatch<T>(rules: seq<Rule<T>>, name: string, fallback: T): T
  {
    if |rules| == 0 then fallback
    else if Includes(name, rules[0].keyword) then rules[0].result
    else FirstMatch(rules[1..], name, fallback)
  }

  /** The icon rules, in the order the code tests them. */
  const IconRules: seq<Rule<Icon>> := [
    Rule("photo", Camera),
    Rule("video", MovieCamera),
    Rule("design", Palette),
    Rule("illustration", Pencil),
    Rule("digital art", FramedPicture),
    Rule("fashion", Dress),
    Rule("fine art", Masks)
  ]

  /** The gradient rules: each `a || b` test of the code is two rules with
      the same result, tried left to right. */
  const GradientRules: seq<Rule<Gradient>> := [
    Rule("photo", AccentToAccentHover),
    Rule("fine art", AccentToAccentHover),
    Rule("video", AccentHoverToAccent),
    Rule("digital art", AccentHoverToAccent),
    Rule("design", SecondaryToAccent),
    Rule("fashion", SecondaryToAccent)
  ]

  /** `getCategoryIcon`: lower-case the name, then test the keywords in
      turn; the first one found decides, and a folder is the default. */
  function CategoryIcon(categoryName: string): Icon
  {
    var cat := ToLower(categoryName);
    if Includes(cat, "photo") then Camera
    else if Includes(cat, "video") then MovieCamera
    else if Includes(cat, "design") then Palette
    else if Includes(cat, "illustration") then Pencil
    else if Includes(cat, "digital art") then FramedPicture
    else if Includes(cat, "fashion") then Dress
    else if Includes(cat, "fine art") then Masks
    else Folder
  }

  /** `getCategoryGradient`: lower-case the name, then test the three
      keyword pairs in turn. */
  function CategoryGradient(categoryName: string): Gradient
  {
    var cat := ToLower(categoryName);
    if Includes(cat, "photo") || Includes(cat, "fine art") then AccentToAccentHover
    else if Includes(cat, "video") || Includes(cat, "digital art") then AccentHoverToAccent
    else if Includes(cat, "design") || Includes(cat, "fashion") then SecondaryToAccent
    else SecondaryToBorder
  }

  /** Rule tables are read front to back: a rule whose keyword is absent
      passes the name on to the rest of the table. */
  lemma Skip<T>(rules: seq<Rule<T>>, name: string, fallback: T)
    requires |rules| > 0 && !Includes(name, rules[0].keyword)
    ensures FirstMatch(rules, name, fallback) == FirstMatch(rules[1..], name, fallback)
  {
  }

  /** The icon chain is the icon table read first match first. */
  lemma IconFollowsTable(categoryName: string)
    ensures CategoryIcon(categoryName) == FirstMatch(IconRules, ToLower(categoryName), Folder)
  {
    var cat := ToLower(categoryName);
    var t := IconRules;
    if !Includes(cat, "photo") {
      Skip(t, cat, Folder);
      if !Includes(cat, "video") {
        Skip(t[1..], cat, Folder);
        if !Includes(cat, "design") {
          Skip(t[2..], cat, Folder);
          assert t[2..][1..] == t[3..];
          if !Includes(cat, "illustration") {
            Skip(t[3..], cat, Folder);
            assert t[3..][1..] == t[4..];
            if !Includes(cat, "digital art") {
              Skip(t[4..], cat, Folder);
              assert t[4..][1..] == t[5..];
              if !Includes(cat, "fashion") {
                Skip(t[5..], cat, Folder);
                assert t[5..][1..] == t[6..];
              }
            }
          }
        }
      }
    }
  }

  /** The gradient chain is the gradient table read first match first:
      each `a || b` test is two consecutive rules. */
  lemma GradientFollowsTable(categoryName: string)
    ensures CategoryGradient(categoryName) == FirstMatch(GradientRules, ToLower(categoryName), SecondaryToBorder)
  {
    var cat := ToLower(categoryName);
    var t := GradientRules;
    var d := SecondaryToBorder;
    if !Includes(cat, "photo") {
      Skip(t, cat, d);
      if !Includes(cat, "fine art") {
        Skip(t[1..], cat, d);
        if !Includes(cat, "video") {
          Skip(t[2..], cat, d);
          assert t[2..][1..] == t[3..];
          if !Includes(cat, "digital art") {
            Skip(t[3..], cat, d);
            assert t[3..][1..] == t[4..];
            if !Includes(cat, "design") {
              Skip(t[4..], cat, d);
              assert t[4..][1..] == t[5..];
            }
          }
        }
      }
    }
  }

  /** First match wins: when rule `k` is the first whose keyword occurs in
      the name, the table answers rule `k`'s result. */
  lemma {:induction false} FirstMatchIsFirst<T>(rules: seq<Rule<T>>, name: string, fallback: T, k: int)
    requires 0 <= k < |rules| && Includes(name, rules[k].keyword)
    requires forall j :: 0 <= j < k ==> !Includes(name, rules[j].keyword)
    ensures FirstMatch(rules, name, fallback) == rules[k].result
  {
    if k > 0 {
      assert !Includes(name, rules[0].keyword);
      FirstMatchIsFirst(rules[1..], name, fallback, k - 1);
    }
  }

  /** When no rule yields the fallback itself, the table answers the
      fallback exactly when no keyword occurs in the name. */
  lemma {:induction false} FallbackIffNoKeyword<T>(rules: seq<Rule<T>>, name: string, fallback: T)
    requires forall i :: 0 <= i < |rules| ==> rules[i].result != fallback
    ensures (FirstMatch(rules, name, fallback) == fallback)
              <==> forall i :: 0 <= i < |rules| ==> !Includes(name, rules[i].keyword)
  {
    if |rules| > 0 {
      FallbackIffNoKeyword(rules[1..], name, fallback);
      if !Includes(name, rules[0].keyword) {
        assert forall i :: 1 <= i < |rules| ==> rules[i] == rules[1..][i - 1];
      }
    }
  }

  /** A section shows the folder icon, and the neutral gradient, exactly
      when its lower-cased name contains none of the keywords. */
  lemma DefaultsIffNoKeyword(categoryName: string)
    ensures (CategoryIcon(categoryName) == Folder)
              <==> forall i :: 0 <= i < |IconRules| ==> !Includes(ToLower(categoryName), IconRules[i].keyword)
    ensures (CategoryGradient(categoryName) == SecondaryToBorder)
              <==> forall i :: 0 <= i < |GradientRules| ==> !Includes(ToLower(categoryName), GradientRules[i].keyword)
  {
    IconFollowsTable(categoryName);
    GradientFollowsTable(categoryName);
    FallbackIffNoKeyword(IconRules, ToLower(categoryName), Folder);
    FallbackIffNoKeyword(GradientRules, ToLower(categoryName), SecondaryToBorder);
  }

  /** "photo" is checked first, so a name mentioning both photo and video
      gets the camera and the photo colours. */
  lemma PhotoBeatsVideo(categoryName: string)
    requires Includes(ToLower(categoryName), "photo") && Includes(ToLower(categoryName), "video")
    ensures CategoryIcon(categoryName) == Camera
    ensures CategoryGradient(categoryName) == AccentToAccentHover
  {
    IconFollowsTable(categoryName);
    GradientFollowsTable(categoryName);
    FirstMatchIsFirst(IconRules, ToLower(categoryName), Folder, 0);
    FirstMatchIsFirst(GradientRules, ToLower(categoryName), SecondaryToBorder, 0);
  }

  /** Both classifiers ignore letter case: a name and its lower-case form,
      and any two names equal after lower-casing, are classified alike. */
  lemma ClassifiersIgnoreCase(a: string, b: string)
    ensures CategoryIcon(ToLower(a)) == CategoryIcon(a)
    ensures CategoryGradient(ToLower(a)) == CategoryGradient(a)
    ensures ToLower(a) == ToLower(b) ==>
              CategoryIcon(a) == CategoryIcon(b) && CategoryGradient(a) == CategoryGradient(b)
  {
    ToLowerIdempotent(a);
  }

  /** The section's own state: expanded or collapsed, the card last
      clicked, and whether the full-size viewer is open. */
  datatype SectionState = SectionState(isOpen: bool, selected: Option<MediaItem>, modalOpen: bool)

  /** A section starts expanded as its `isExpanded` setting says (the
      component defaults it to true), with no card selected and the viewer
      closed. */
  function InitSection(isExpanded: bool): (s: SectionState)
    ensures s.isOpen == isExpanded && s.selected.None? && !s.modalOpen
  {
    SectionState(isExpanded, None, false)
  }

  /** Clicking the header flips between expanded and collapsed and leaves
      the selection alone. */
  function Toggle(s: SectionState): (r: SectionState)
    ensures r.isOpen == !s.isOpen
    ensures r.selected == s.selected && r.modalOpen == s.modalOpen
  {
    s.(isOpen := !s.isOpen)
  }

  /** Two clicks on the header restore the section. */
  lemma ToggleTwice(s: SectionState)
    ensures Toggle(Toggle(s)) == s
  {
  }

  /** Clicking a card selects it and opens the viewer. */
  function CardClick(s: SectionState, item: MediaItem): (r: SectionState)
    ensures r.selected == Some(item) && r.modalOpen
    ensures r.isOpen == s.isOpen
  {
    s.(selected := Some(item), modalOpen := true)
  }

  /** Closing the viewer clears the selection. */
  function CloseModal(s: SectionState): (r: SectionState)
    ensures r.selected.None? && !r.modalOpen
    ensures r.isOpen == s.isOpen
  {
    s.(selected := None, modalOpen := false)
  }

  /** Opening a card and closing the viewer leaves a section that had
      nothing open as it was. */
  lemma ClickThenClose(s: SectionState, item: MediaItem)
    requires s.selected.None? && !s.modalOpen
    ensures CloseModal(CardClick(s, item)) == s
  {
  }

  /** The two count labels of the header: singular only for exactly one
      item. */
  function CountLabels(n: nat): (labels: (string, string))
    ensures labels.0 == "item" <==> n == 1
    ensures labels.0 == "items" <==> n != 1
    ensures labels.1 == "piece" <==> n == 1
    ensures labels.1 == "pieces" <==> n != 1
  {
    if n == 1 then ("item", "piece") else ("items", "pieces")
  }
}

=== FILE: seqs.dfy ===
/** Order-related facts about sequences shared by the list operations. */
module Seqs {

  /** `a` can be obtained from `b` by deleting elements, so `a` keeps the
      relative order `b` gives them. */
  ghost predicate IsSubsequence<T>(a: seq<T>, b: seq<T>)
    decreases |b|
  {
    if |a| == 0 then true
    else if |b| == 0 then false
    else if a[0] == b[0] then IsSubsequence(a[1..], b[1..])
    else IsSubsequence(a, b[1..])
  }

  /** Concatenation is associative. */
  lemma ConcatAssoc<T>(a: seq<T>, b: seq<T>, c: seq<T>)
    ensures (a + b) + c == a + (b + c)
  {
  }

  /** No element occurs twice. */
  ghost predicate Distinct<T>(s: seq<T>)
  {
    forall i, j :: 0 <= i < j < |s| ==> s[i] != s[j]
  }

  /** Dropping the head of a duplicate-free sequence keeps it duplicate-free,
      and the head does not occur again. */
  lemma DistinctTail<T>(s: seq<T>)
    requires Distinct(s) && |s| > 0
    ensures Distinct(s[1..])
    ensures s[0] !in s[1..]
  {
    var rest := s[1..];
    forall i, j | 0 <= i < j < |rest| ensures rest[i] != rest[j] {
      assert rest[i] == s[i + 1] && rest[j] == s[j + 1];
    }
    forall k | 0 <= k < |rest| ensures rest[k] != s[0] {
      assert rest[k] == s[k + 1];
    }
  }

  /** A duplicate-free sequence has as many elements as its set. */
  lemma {:induction false} DistinctCardinality<T>(s: seq<T>)
    requires Distinct(s)
    ensures |set x | x in s| == |s|
  {
    if |s| > 0 {
      var rest := s[1..];
      DistinctTail(s);
      DistinctCardinality(rest);
      assert (set x | x in s) == (set x | x in rest) + {s[0]} by {
        assert s == [s[0]] + rest;
      }
    }
  }
}

=== FILE: string_order.dfy ===
/** The comparison the home page sorts category names with. `localeCompare`
    is modelled as plain lexicographic order on code points. */
module StringOrder {
  import opened Seqs

  /** `a` sorts strictly before `b`. */
  predicate Less(a: string, b: string)
    decreases |a|
  {
    if |a| == 0 then |b| > 0
    else if |b| == 0 then false
    else if a[0] < b[0] then true
    else a[0] == b[0] && Less(a[1..], b[1..])
  }

  /** No string sorts before itself. */
  lemma {:induction false} LessIrreflexive(a: string)
    ensures !Less(a, a)
    decreases |a|
  {
    if |a| > 0 {
      LessIrreflexive(a[1..]);
    }
  }

  /** The order is transitive. */
  lemma {:induction false} LessTransitive(a: string, b: string, c: string)
    requires Less(a, b) && Less(b, c)
    ensures Less(a, c)
    decreases |a|
  {
    if |a| > 0 && |b| > 0 && |c| > 0 && a[0] == b[0] && b[0] == c[0] {
      LessTransitive(a[1..], b[1..], c[1..]);
    }
  }

  /** Two different strings are always ordered one way or the other, and
      never both ways. */
  lemma {:induction false} LessTotal(a: string, b: string)
    ensures a != b <==> (Less(a, b) || Less(b, a))
    ensures !(Less(a, b) && Less(b, a))
    decreases |a|
  {
    if |a| > 0 && |b| > 0 && a[0] == b[0] {
      LessTotal(a[1..], b[1..]);
      assert a == [a[0]] + a[1..] && b == [b[0]] + b[1..];
    } else if a == b {
      LessIrreflexive(a);
    }
  }

  /** Every element sorts strictly before every later element. */
  ghost predicate StrictlySorted(s: seq<string>)
  {
    forall i, j :: 0 <= i < j < |s| ==> Less(s[i], s[j])
  }

  /** A key below every element of a sorted list can be put in front. */
  lemma {:induction false} ConsSorted(h: string, rest: seq<string>)
    requires StrictlySorted(rest)
    requires forall x :: x in rest ==> Less(h, x)
    ensures StrictlySorted([h] + rest)
  {
    var r := [h] + rest;
    forall i, j | 0 <= i < j < |r| ensures Less(r[i], r[j]) {
      assert r[j] == rest[j - 1];
      if i > 0 {
        assert r[i] == rest[i - 1];
      }
    }
  }

  /** The head of a sorted list is below every later element, and below
      anything above it. */
  lemma {:induction false} HeadIsLeast(ks: seq<string>, k: string)
    requires StrictlySorted(ks) && |ks| > 0
    ensures forall x :: x in ks[1..] ==> Less(ks[0], x)
    ensures Less(k, ks[0]) ==> forall x :: x in ks ==> Less(k, x)
  {
    forall x | x in ks[1..] ensures Less(ks[0], x) {
      var j :| 0 <= j < |ks[1..]| && ks[1..][j] == x;
      assert ks[j + 1] == x;
    }
    if Less(k, ks[0]) {
      forall x | x in ks ensures Less(k, x) {
        if x != ks[0] {
          assert x in ks[1..] by {
            var j :| 0 <= j < |ks| && ks[j] == x;
            assert ks[1..][j - 1] == x;
          }
          LessTransitive(k, ks[0], x);
        }
      }
    }
  }

  /** A bound below a list and below a new key stays below the list with
      the key added. */
  lemma StillAbove(h: string, k: string, tail: seq<string>, rest: seq<string>)
    requires forall x :: x in tail ==> Less(h, x)
    requires Less(h, k)
    requires multiset(rest) == multiset(tail) + multiset{k}
    ensures forall x :: x in rest ==> Less(h, x)
  {
    forall x | x in rest ensures Less(h, x) {
      assert x in multiset(rest);
      assert x == k || x in multiset(tail);
    }
  }

  /** Inserts a new key at its place in a sorted, duplicate-free list. */
  function Insert(k: string, ks: seq<string>): (r: seq<string>)
    requires StrictlySorted(ks)
    requires k !in ks
    ensures StrictlySorted(r)
    ensures multiset(r) == multiset(ks) + multiset{k}
  {
    if |ks| == 0 then [k]
    else
      HeadIsLeast(ks, k);
      if Less(k, ks[0]) then
        ConsSorted(k, ks);
        [k] + ks
      else
        LessTotal(k, ks[0]);
        var rest := Insert(k, ks[1..]);
        StillAbove(ks[0], k, ks[1..], rest);
        ConsSorted(ks[0], rest);
        assert ks == [ks[0]] + ks[1..];
        [ks[0]] + rest
  }

  /** Sorts a duplicate-free list of keys in ascending order. */
  function Sort(ks: seq<string>): (r: seq<string>)
    requires Distinct(ks)
    ensures StrictlySorted(r)
    ensures multiset(r) == multiset(ks)
  {
    if |ks| == 0 then []
    else
      var rest := ks[1..];
      DistinctTail(ks);
      var sorted := Sort(rest);
      assert ks[0] !in multiset(sorted);
      assert ks == [ks[0]] + rest;
      Insert(ks[0], sorted)
  }
}

=== FILE: text.dfy ===
/** The JavaScript string primitives the front end relies on:
    `String.prototype.trim`, `toLowerCase` and `includes`. */
module Text {

  /** The characters `trim` strips: ECMAScript WhiteSpace (tab, vertical tab,
      form feed, space, no-break space, byte order mark and the Space_Separator
      category) and LineTerminator (line feed, carriage return, line and
      paragraph separators). */
  predicate IsJsWhitespace(c: char)
  {
    || c == '\t' || c == '\U{0B}' || c == '\U{0C}' || c == ' '
    || c == '\U{A0}' || c == '\U{FEFF}' || c == '\U{1680}'
    || ('\U{2000}' <= c <= '\U{200A}')
    || c == '\U{202F}' || c == '\U{205F}' || c == '\U{3000}'
    || c == '\n' || c == '\r' || c == '\U{2028}' || c == '\U{2029}'
  }

  /** Every character is whitespace (the empty string included). */
  predicate IsBlank(s: string)
  {
    forall i :: 0 <= i < |s| ==> IsJsWhitespace(s[i])
  }

  /** Drops the leading whitespace: the result is the longest suffix of `s`
      that does not start with whitespace. */
  function TrimStart(s: string): (r: string)
    ensures |r| <= |s| && r == s[|s| - |r|..]
    ensures forall i :: 0 <= i < |s| - |r| ==> IsJsWhitespace(s[i])
    ensures r == [] || !IsJsWhitespace(r[0])
    decreases |s|
  {
    if |s| > 0 && IsJsWhitespace(s[0]) then TrimStart(s[1..]) else s
  }

  /** Drops the trailing whitespace: the result is the longest prefix of `s`
      that does not end with whitespace. */
  function TrimEnd(s: string): (r: string)
    ensures |r| <= |s| && r == s[..|r|]
    ensures forall i :: |r| <= i < |s| ==> IsJsWhitespace(s[i])
    ensures r == [] || !IsJsWhitespace(r[|r| - 1])
    decreases |s|
  {
    if |s| > 0 && IsJsWhitespace(s[|s| - 1]) then TrimEnd(s[..|s| - 1]) else s
  }

  /** `s.trim()`: the slice of `s` left after dropping white space from
      both ends, so only white space lies outside it and it neither starts
      nor ends with white space. The result is empty exactly when `s` is
      blank, which is when JavaScript treats `s.trim()` as falsy. */
  function Trim(s: string): (r: string)
    ensures exists i :: && 0 <= i <= |s| - |r| && r == s[i..i + |r|]
                        && IsBlank(s[..i]) && IsBlank(s[i + |r|..])
    ensures r == [] <==> IsBlank(s)
    ensures r == [] || (!IsJsWhitespace(r[0]) && !IsJsWhitespace(r[|r| - 1]))
  {
    var t := TrimStart(s);
    var r := TrimEnd(t);
    assert r != [] ==> r[0] == t[0];
    assert t != [] ==> !IsJsWhitespace(t[0]);
    TrimIsSlice(s, t, r);
    r
  }

  /** A prefix `r` of a suffix `t` of `s`, with only white space cut off on
      either side, is a slice of `s` with only white space outside it. */
  lemma TrimIsSlice(s: string, t: string, r: string)
    requires |t| <= |s| && t == s[|s| - |t|..]
    requires forall k :: 0 <= k < |s| - |t| ==> IsJsWhitespace(s[k])
    requires |r| <= |t| && r == t[..|r|]
    requires forall k :: |r| <= k < |t| ==> IsJsWhitespace(t[k])
    ensures exists i :: && 0 <= i <= |s| - |r| && r == s[i..i + |r|]
                        && IsBlank(s[..i]) && IsBlank(s[i + |r|..])
  {
    var i := |s| - |t|;
    assert r == s[i..i + |r|];
    assert IsBlank(s[..i]) by {
      forall k | 0 <= k < i ensures IsJsWhitespace(s[..i][k]) {
        assert s[..i][k] == s[k];
      }
    }
    var tail := s[i + |r|..];
    forall k | 0 <= k < |tail| ensures IsJsWhitespace(tail[k]) {
      assert tail[k] == t[|r| + k];
    }
  }

  /** An ASCII decimal digit. */
  predicate IsDigit(c: char)
  {
    '0' <= c <= '9'
  }

  /** Every character of `s` is a decimal digit. */
  predicate AllDigits(s: string)
  {
    forall i :: 0 <= i < |s| ==> IsDigit(s[i])
  }

  /** The number a string of decimal digits denotes, most significant digit
      first. */
  function DecimalValue(s: string): nat
    requires AllDigits(s)
    decreases |s|
  {
    if |s| == 0 then 0
    else 10 * DecimalValue(s[..|s| - 1]) + (s[|s| - 1] as int - '0' as int)
  }

  /** ASCII lower-casing of one character. */
  function LowerChar(c: char): char
  {
    if 'A' <= c <= 'Z' then (c as int + 32) as char else c
  }

  /** `s.toLowerCase()`, restricted to ASCII letters. */
  function ToLower(s: string): (r: string)
    ensures |r| == |s|
    ensures forall i :: 0 <= i < |s| ==> r[i] == LowerChar(s[i])
  {
    seq(|s|, i requires 0 <= i < |s| => LowerChar(s[i]))
  }

  /** Lower-casing twice changes nothing more than lower-casing once. */
  lemma ToLowerIdempotent(s: string)
    ensures ToLower(ToLower(s)) == ToLower(s)
  {
    var once := ToLower(s);
    forall i | 0 <= i < |s| ensures ToLower(once)[i] == once[i] {
      assert once[i] == LowerChar(s[i]);
    }
  }

  /** `sub` occurs in `s` starting at index `i`. */
  predicate OccursAt(s: string, sub: string, i: int)
  {
    0 <= i && i + |sub| <= |s| && s[i..i + |sub|] == sub
  }

  /** `s.includes(sub)`: `sub` occurs somewhere in `s`. */
  function Includes(s: string, sub: string): (r: bool)
    ensures r <==> exists i :: OccursAt(s, sub, i)
    decreases |s|
  {
    if |sub| <= |s| && s[..|sub|] == sub then
      assert OccursAt(s, sub, 0);
      true
    else if |s| == 0 then
      assert forall i :: !OccursAt(s, sub, i);
      false
    else
      var r := Includes(s[1..], sub);
      assert forall i :: OccursAt(s[1..], sub, i) ==> OccursAt(s, sub, i + 1) by {
        forall i | OccursAt(s[1..], sub, i) ensures OccursAt(s, sub, i + 1) {
          assert s[i + 1..i + 1 + |sub|] == s[1..][i..i + |sub|];
        }
      }
      assert forall i :: OccursAt(s, sub, i) ==> i > 0 && OccursAt(s[1..], sub, i - 1) by {
        forall i | OccursAt(s, sub, i) ensures i > 0 && OccursAt(s[1..], sub, i - 1) {
          assert s[1..][i - 1..i - 1 + |sub|] == s[i..i + |sub|];
        }
      }
      r
  }
}

=== FILE: theme_context.dfy ===
/** The colour theme and light/dark mode (frontend/context/ThemeContext.tsx):
    the allowed values, the defaults, restoring saved values from the
    browser's local storage and writing the current ones back. Storage is
    a map from key to text; the document attributes are not modelled. */
module ThemeContext {
  import opened Outcomes

  /** The five colour themes. */
  datatype Theme = Beige | PastelBlue | PastelPink | PastelGreen | BrightOrange

  /** Light or dark rendering. */
  datatype ColorMode = Light | Dark

  /** The text stored for each theme. */
  function ThemeName(t: Theme): string
  {
    match t
    case Beige => "beige"
    case PastelBlue => "pastel-blue"
    case PastelPink => "pastel-pink"
    case PastelGreen => "pastel-green"
    case BrightOrange => "bright-orange"
  }

  /** The text stored for each mode. */
  function ModeName(m: ColorMode): string
  {
    match m
    case Light => "light"
    case Dark => "dark"
  }

  /** The allowed theme texts, as listed in the restore check. */
  const AllowedThemes: seq<string> :=
    ["beige", "pastel-blue", "pastel-pink", "pastel-green", "bright-orange"]

  /** The allowed mode texts. */
  const AllowedModes: seq<string> := ["light", "dark"]

  /** Reading back a stored theme text: only the five allowed texts name a
      theme. */
  function ParseTheme(s: string): (r: Option<Theme>)
    ensures r.Some? <==> s in AllowedThemes
    ensures r.Some? ==> ThemeName(r.value) == s
  {
    if s == "beige" then Some(Beige)
    else if s == "pastel-blue" then Some(PastelBlue)
    else if s == "pastel-pink" then Some(PastelPink)
    else if s == "pastel-green" then Some(PastelGreen)
    else if s == "bright-orange" then Some(BrightOrange)
    else None
  }

  /** Reading back a stored mode text. */
  function ParseMode(s: string): (r: Option<ColorMode>)
    ensures r.Some? <==> s in AllowedModes
    ensures r.Some? ==> ModeName(r.value) == s
  {
    if s == "light" then Some(Light)
    else if s == "dark" then Some(Dark)
    else None
  }

  /** Every theme's text is allowed and reads back as the same theme, so
      the names are distinct. */
  lemma ThemeNamesRoundTrip(t: Theme)
    ensures ThemeName(t) in AllowedThemes
    ensures ParseTheme(ThemeName(t)) == Some(t)
  {
  }

  /** Every mode's text is allowed and reads back as the same mode. */
  lemma ModeNamesRoundTrip(m: ColorMode)
    ensures ModeName(m) in AllowedModes
    ensures ParseMode(ModeName(m)) == Some(m)
  {
  }

  /** The provider's state. */
  datatype ThemeState = ThemeState(theme: Theme, mode: ColorMode)

  /** Both the provider and the context default start at beige, light. */
  const Defaults: ThemeState := ThemeState(Beige, Light)

  /** Local storage: text values under text keys. */
  type Storage = map<string, string>

  /** The storage keys. */
  const ThemeKey: string := "theme"
  const ModeKey: string := "colorMode"

  /** `localStorage.getItem`: the stored text, or nothing. */
  function GetItem(storage: Storage, key: string): (r: Option<string>)
    ensures r.Some? <==> key in storage
    ensures r.Some? ==> r.value == storage[key]
  {
    if key in storage then Some(storage[key]) else None
  }

  /** The restore effect: a stored theme is adopted only when it is one of
      the five names, and a stored mode only when it is "light" or "dark";
      each is decided on its own, and anything else keeps the prior
      value. */
  function Restore(storage: Storage, prior: ThemeState): (r: ThemeState)
    ensures ThemeKey in storage && storage[ThemeKey] in AllowedThemes ==>
              ThemeName(r.theme) == storage[ThemeKey]
    ensures !(ThemeKey in storage && storage[ThemeKey] in AllowedThemes) ==> r.theme == prior.theme
    ensures ModeKey in storage && storage[ModeKey] in AllowedModes ==>
              ModeName(r.mode) == storage[ModeKey]
    ensures !(ModeKey in storage && storage[ModeKey] in AllowedModes) ==> r.mode == prior.mode
    ensures ThemeName(r.theme) in AllowedThemes && ModeName(r.mode) in AllowedModes
  {
    var theme :=
      match GetItem(storage, ThemeKey)
      case Some(saved) =>
        (match ParseTheme(saved) case Some(t) => t case None => prior.theme)
      case None => prior.theme;
    var mode :=
      match GetItem(storage, ModeKey)
      case Some(saved) =>
        (match ParseMode(saved) case Some(m) => m case None => prior.mode)
      case None => prior.mode;
    ThemeNamesRoundTrip(theme);
    ModeNamesRoundTrip(mode);
    ThemeState(theme, mode)
  }

  /** The persist effect: the current theme and mode are written under
      their keys; every other key is left alone. */
  function Persist(storage: Storage, s: ThemeState): (r: Storage)
    ensures r.Keys == storage.Keys + {ThemeKey, ModeKey}
    ensures r[ThemeKey] == ThemeName(s.theme) && r[ModeKey] == ModeName(s.mode)
    ensures forall k :: k in storage && k != ThemeKey && k != ModeKey ==> r[k] == storage[k]
  {
    storage[ThemeKey := ThemeName(s.theme)][ModeKey := ModeName(s.mode)]
  }

  /** What was persisted is what is restored, whatever the prior state. */
  lemma RestorePersisted(storage: Storage, s: ThemeState, prior: ThemeState)
    ensures Restore(Persist(storage, s), prior) == s
  {
    ThemeNamesRoundTrip(s.theme);
    ModeNamesRoundTrip(s.mode);
  }

  /** A second persist overwrites the first: only the last written state
      remains, and other keys are untouched by both. */
  lemma {:induction false} PersistOverwrites(storage: Storage, first: ThemeState, last: ThemeState)
    ensures Persist(Persist(storage, first), last) == Persist(storage, last)
  {
    var a := Persist(Persist(storage, first), last);
    var b := Persist(storage, last);
    assert a.Keys == b.Keys;
    forall k | k in a
      ensures a[k] == b[k]
    {
    }
  }

  /** Changing only the stored mode leaves the restored theme as it was:
      the two values are restored independently. */
  lemma RestoreIsIndependent(storage: Storage, text: string, prior: ThemeState)
    ensures Restore(storage[ModeKey := text], prior).theme == Restore(storage, prior).theme
    ensures Restore(storage[ThemeKey := text], prior).mode == Restore(storage, prior).mode
  {
  }

  /** Start-up: the restore effect reads storage first; the persist
      effect then writes the defaults, and writes again once the restored
      values are in place. The final storage holds the restored values
      under both keys, every other key as it was, so a saved choice
      survives a reload and an invalid stored value is replaced. */
  function Mount(storage: Storage): (r: (ThemeState, Storage))
    ensures r.0 == Restore(storage, Defaults)
    ensures r.1 == Persist(storage, r.0)
    ensures Restore(r.1, Defaults) == r.0
  {
    var restored := Restore(storage, Defaults);
    var written := Persist(Persist(storage, Defaults), restored);
    PersistOverwrites(storage, Defaults, restored);
    RestorePersisted(storage, restored, Defaults);
    (restored, written)
  }

  /** A reload after persisting state `s` starts in `s`. */
  lemma ReloadKeepsChoice(storage: Storage, s: ThemeState)
    ensures Mount(Persist(storage, s)).0 == s
  {
    RestorePersisted(storage, s, Defaults);
  }

  /** An invalid stored theme is overwritten with the default on
      start-up. */
  lemma MountReplacesInvalidTheme()
    ensures Mount(map[ThemeKey := "purple"]).1[ThemeKey] == "beige"
  {
    assert "purple" !in AllowedThemes;
  }

  /** With nothing valid stored, start-up uses beige and light. */
  lemma EmptyStorageGivesDefaults()
    ensures Mount(map[]).0 == Defaults
  {
  }
}

=== FILE: theme_selector.dfy ===
/** The theme menu in the header (frontend/components/ThemeSelector.tsx):
    the table of theme options, the colour swatch lookup, the light/dark
    toggle, and the menu's open/close/choose transitions. */
module ThemeSelector {
  import opened Outcomes
  import opened ThemeContext

  /** One entry of the menu: the theme, its label and its swatch colour. */
  datatype ThemeOption = ThemeOption(value: Theme, name: string, color: string)

  /** The menu entries, in display order. */
  const Themes: seq<ThemeOption> := [
    ThemeOption(Beige, "Beige", "#E8D5C4"),
    ThemeOption(PastelBlue, "Pastel Blue", "#B8D4E3"),
    ThemeOption(PastelPink, "Pastel Pink", "#F4C2C2"),
    ThemeOption(PastelGreen, "Pastel Green", "#C8E6C9"),
    ThemeOption(BrightOrange, "Bright Orange", "#FFB74D")
  ]

  /** `themes.find(t => t.value === theme)?.color`: the colour of the first
      entry for the theme, or nothing. */
  function FindColor(options: seq<ThemeOption>, t: Theme): (r: Option<string>)
    ensures r.Some? <==> exists i :: 0 <= i < |options| && options[i].value == t
    ensures r.Some? ==> exists i :: && 0 <= i < |options| && options[i].value == t
                                     && options[i].color == r.value
                                     && forall j :: 0 <= j < i ==> options[j].value != t
  {
    if |options| == 0 then None
    else if options[0].value == t then Some(options[0].color)
    else
      var r := FindColor(options[1..], t);
      assert forall i :: 0 <= i < |options[1..]| ==> options[1..][i] == options[i + 1];
      if r.Some? then
        var i :| && 0 <= i < |options[1..]| && options[1..][i].value == t
                 && options[1..][i].color == r.value
                 && forall j :: 0 <= j < i ==> options[1..][j].value != t;
        assert forall j :: 0 <= j < i + 1 ==> options[j].value != t;
        r
      else r
  }

  /** The table lists five different themes and so every theme exactly
      once: the swatch lookup always finds a colour. */
  lemma TableCoversEveryTheme(t: Theme)
    ensures |Themes| == 5
    ensures forall i, j :: 0 <= i < j < |Themes| ==> Themes[i].value != Themes[j].value
    ensures exists i :: 0 <= i < |Themes| && Themes[i].value == t
    ensures FindColor(Themes, t).Some?
  {
    var i := match t
      case Beige => 0
      case PastelBlue => 1
      case PastelPink => 2
      case PastelGreen => 3
      case BrightOrange => 4;
    assert Themes[i].value == t;
  }

  /** The light/dark button: light becomes dark and anything else becomes
      light. */
  function ToggleColorMode(m: ColorMode): (r: ColorMode)
    ensures r != m
  {
    if m == Light then Dark else Light
  }

  /** Pressing the button twice restores the mode. */
  lemma ToggleTwice(m: ColorMode)
    ensures ToggleColorMode(ToggleColorMode(m)) == m
  {
  }

  /** The selector's view of the world: whether its menu is open, and the
      provider's theme state. */
  datatype Selector = Selector(menuOpen: bool, state: ThemeState)

  /** What the user can do in the selector. */
  datatype Event = TriggerClick | BackdropClick | Choose(value: Theme) | ModeButton

  /** One event. The backdrop, the entries and the dark-mode switch exist
      only while the menu is open, so when it is closed only the trigger
      does anything. The switch leaves the menu open. */
  function Step(s: Selector, e: Event): (r: Selector)
    ensures e.TriggerClick? ==> r == s.(menuOpen := !s.menuOpen)
    ensures e.BackdropClick? ==> !r.menuOpen && r.state == s.state
    ensures e.Choose? && s.menuOpen ==> !r.menuOpen && r.state == s.state.(theme := e.value)
    ensures e.ModeButton? && s.menuOpen ==>
              r.menuOpen && r.state.theme == s.state.theme && r.state.mode != s.state.mode
    ensures !s.menuOpen && !e.TriggerClick? ==> r == s
  {
    match e
    case TriggerClick => s.(menuOpen := !s.menuOpen)
    case BackdropClick => if s.menuOpen then s.(menuOpen := false) else s
    case Choose(value) =>
      if s.menuOpen then Selector(false, s.state.(theme := value)) else s
    case ModeButton =>
      if s.menuOpen then s.(state := s.state.(mode := ToggleColorMode(s.state.mode))) else s
  }

  /** Choosing a theme from the menu survives a reload: the chosen theme
      is persisted and restored, with the mode as it was. */
  lemma ChosenThemeSurvivesReload(s: Selector, t: Theme, storage: Storage)
    requires s.menuOpen
    ensures var after := Step(s, Choose(t));
            Mount(Persist(storage, after.state)).0 == ThemeState(t, s.state.mode)
  {
    ReloadKeepsChoice(storage, Step(s, Choose(t)).state);
  }
}

=== FILE: upload_modal.dfy ===
/** The upload dialog (frontend/components/UploadModal.tsx): its form, the
    validity rule that enables the upload button, the category actually
    stored, and what one press of the button dispatches and saves. The
    uploaded bytes, the preview address and the busy flag are not
    modelled; the upload and save replies and the new item's uuid are
    parameters. */
module UploadModal {
  import opened Outcomes
  import opened Media
  import opened Text
  import opened PortfolioContext
  import opened Api

  /** The category option that asks for a custom category name. */
  const Other: string := "Other"

  /** The dialog's input state. */
  datatype Form = Form(
    file: Option<FileRef>,
    title: string,
    description: string,
    category: string,
    customCategory: string)

  /** The dialog as it opens: nothing chosen, every text empty. */
  const InitialForm: Form := Form(None, "", "", "", "")

  /** Choosing a category option: the choice is recorded, and the custom
      name is cleared unless the choice is the custom option. */
  function ChangeCategory(f: Form, value: string): (r: Form)
    ensures r.category == value
    ensures value != Other ==> r.customCategory == ""
    ensures value == Other ==> r.customCategory == f.customCategory
    ensures r.file == f.file && r.title == f.title && r.description == f.description
  {
    if value != Other then f.(category := value, customCategory := "")
    else f.(category := value)
  }

  /** The truthiness chain behind the upload button: a file, a title and a
      description that are not blank once trimmed, a chosen category, and
      for the custom option a custom name that is not blank. */
  function IsFormValid(f: Form): (r: bool)
    ensures r <==> && f.file.Some?
                   && !IsBlank(f.title)
                   && !IsBlank(f.description)
                   && f.category != ""
                   && (f.category != Other || !IsBlank(f.customCategory))
  {
    f.file.Some? && Trim(f.title) != "" && Trim(f.description) != ""
    && f.category != "" && (f.category != Other || Trim(f.customCategory) != "")
  }

  /** The dialog opens with the upload button disabled: the empty form is
      not valid, and choosing a file alone does not make it valid. */
  lemma InitialFormIsInvalid(file: FileRef)
    ensures !IsFormValid(InitialForm)
    ensures !IsFormValid(InitialForm.(file := Some(file)))
  {
  }

  /** The category stored with the new item: the trimmed custom name when
      the custom option is chosen and the name is not blank, otherwise the
      chosen option exactly as it is. A valid form never stores an empty
      category. */
  function FinalCategory(f: Form): (r: string)
    ensures f.category == Other && !IsBlank(f.customCategory) ==> r == Trim(f.customCategory)
    ensures !(f.category == Other && !IsBlank(f.customCategory)) ==> r == f.category
    ensures IsFormValid(f) ==> r != ""
  {
    if f.category == Other && Trim(f.customCategory) != "" then Trim(f.customCategory)
    else f.category
  }

  /** A custom category is stored without surrounding white space. */
  lemma CustomCategoryIsTrimmed(f: Form)
    requires f.category == Other && !IsBlank(f.customCategory)
    ensures var c := FinalCategory(f);
            c != [] && !IsJsWhitespace(c[0]) && !IsJsWhitespace(c[|c| - 1])
  {
  }

  /** The item the dialog adds: a fresh id, the file's name, kind and
      address from the upload reply, the title and description exactly as
      typed, and the final category. */
  function NewItem(f: Form, data: UploadData, newId: string): (m: MediaItem)
    ensures m.id == newId
    ensures m.filename == data.filename && m.mediaType == data.mediaType && m.url == data.url
    ensures m.title == f.title && m.description == f.description
    ensures m.category == FinalCategory(f)
  {
    MediaItem(newId, data.filename, data.mediaType, f.title, f.description, FinalCategory(f), data.url)
  }

  /** What one press of the upload button does: the upload request sent,
      the actions dispatched, the save request sent, and whether the dialog
      closes. */
  datatype Effects = Effects(
    upload: Option<Request>,
    dispatched: seq<Action>,
    save: Option<Request>,
    closed: bool)

  /** `handleUpload`. Without a file nothing happens. Otherwise the file is
      uploaded; a failed upload is only logged. A successful one dispatches
      `ADD_ITEM` with the new item, then saves the item list the dialog
      rendered with plus the new item, and closes the dialog only when that
      save succeeds. */
  function HandleUpload(f: Form, items: seq<MediaItem>, base: string, userId: string,
                        uploadReply: Reply<UploadData>, newId: string,
                        saveReply: Reply<Ack>): (e: Effects)
    ensures f.file.None? ==> e == Effects(None, [], None, false)
    ensures f.file.Some? ==> e.upload == Some(UploadRequest(base, f.file.value))
    ensures f.file.Some? && UploadFile(base, uploadReply).Err? ==>
              e.dispatched == [] && e.save.None? && !e.closed
    ensures f.file.Some? && UploadFile(base, uploadReply).Ok? ==>
              var item := NewItem(f, UploadFile(base, uploadReply).value, newId);
              && e.dispatched == [AddItem(item)]
              && e.save == Some(SaveRequest(base, userId, items + [item]))
              && (e.closed <==> Settle(saveReply, SaveFailed).Ok?)
  {
    match f.file
    case None => Effects(None, [], None, false)
    case Some(file) =>
      var upload := Some(UploadRequest(base, file));
      match UploadFile(base, uploadReply)
      case Err(_) => Effects(upload, [], None, false)
      case Ok(data) =>
        var item := NewItem(f, data, newId);
        Effects(upload, [AddItem(item)], Some(SaveRequest(base, userId, items + [item])),
                Settle(saveReply, SaveFailed).Ok?)
  }

  /** The list a successful upload saves is the list the reducer holds
      after the dispatched `ADD_ITEM`, so client and server agree on it
      (when no other action intervenes). */
  lemma SavedListMatchesReducer(f: Form, items: seq<MediaItem>, base: string, userId: string,
                                uploadReply: Reply<UploadData>, newId: string,
                                saveReply: Reply<Ack>)
    requires f.file.Some? && UploadFile(base, uploadReply).Ok?
    ensures var e := HandleUpload(f, items, base, userId, uploadReply, newId, saveReply);
            && |e.dispatched| == 1
            && e.save == Some(SaveRequest(base, userId, Run(State(items), e.dispatched).items))
  {
    var e := HandleUpload(f, items, base, userId, uploadReply, newId, saveReply);
    var s1 := Reduce(State(items), e.dispatched[0]);
    assert Run(State(items), e.dispatched) == Run(s1, []);
    assert s1.items == items + [e.dispatched[0].payload];
  }

  /** A successful upload of a valid form adds an item whose category is
      not empty and whose address is the file's address under the base. */
  lemma UploadedItemIsComplete(f: Form, items: seq<MediaItem>, base: string, userId: string,
                               uploadReply: Reply<UploadData>, newId: string,
                               saveReply: Reply<Ack>)
    requires IsFormValid(f) && uploadReply.Reply? && IsOk(uploadReply.status)
    ensures var e := HandleUpload(f, items, base, userId, uploadReply, newId, saveReply);
            var item := e.dispatched[0].payload;
            && item.category != ""
            && item.url == base + "/uploads/" + uploadReply.body.filename
  {
  }
}
